=== FILE: README.md ===
# Persistence bookkeeping of BERTopic-as-service, in Dafny

BERTopic-as-service is a web service around a topic-modelling library. This
project models how the service persists what a fitted model produces. It
also proves the promises that persistence makes. Two stores are involved:

- **The metadata store** is a relational database with three tables:
  - `topic_model` holds one row per (model id, version) pair, unique on that pair;
  - `topic` holds topics, each owned by a `topic_model` row;
  - `word` holds ranked words, each owned by a `topic` row.

  Deleting a model version cascades to its topics and their words.
- **The artifact store** is an S3 bucket. It maps an object key to a serialized model.

Modules, following the program's files:

| module | file | models |
|---|---|---|
| `Tables` | `tables.dfy` | a table: rows in storage order plus the auto-increment counter; filtered deletion |
| `Models` | `models.dfy` | the row shapes and the integrity rules: unique (model id, version), topics and words owned, the downward cascade |
| `CrudBase` | `crud_base.dfy` | generic get / get_multi / create / update / remove |
| `TopicModelCrud` | `crud_topic_model.dfy` | lookup and removal by (model id, version), the maximum version, creation under the unique constraint |
| `TopicCrud` | `crud_topic.dfy` | listing a version's topics ordered by count (optionally with words), batch insertion of topics and words |
| `ApiUtils` | `api_utils.dfy` | artifact keys, save and load of an artifact, conversion of the engine's output into topic rows |
| `ModelsEndpoint` | `endpoint_models.dfy` | the `/models` endpoints: list, topics, topics with words, remove |
| `Decimal`, `Uuids`, `Results` | `decimal.dfy`, `uuids.dfy`, `results.dfy` | decimal text of integers, canonical UUID text, `Option`/`Result` |

Modelling choices:

- **Pure transitions.** Every store operation is a function from the old
  state to the new one. A failed commit is an `Err` that leaves the state as
  it was.
- **Row order (an assumption).** The database promises no order for a query
  without `ORDER BY`; PostgreSQL returns heap order, which after deletes and
  vacuuming can differ from insertion order. The model assumes that such
  queries (`get_multi`, `.first()`, the listing page, the words loaded for
  a topic) return rows in insertion order, and deletions keep the order of
  the rows that remain. Every property below that speaks of the order of
  such a query, in particular the rank order of a topic's words, rests on
  this assumption.
- **Sorting by count.** The listing sorts by count, descending. The database
  leaves the order of equal counts open; the model keeps storage order for
  ties, and the proved properties hold for any tie order applied the same way to both the listing with words and the one without.
- **Model ids** are carried as their canonical 36-character UUID text
  (section 3 of RFC 4122), which is what `str(uuid)` produces.
- **Versions in keys** are rendered in decimal, as Python's f-string renders an `int`.
- **The stored model** is an opaque type parameter `A`, because the service
  only stores and returns it.
- **Randomness.** The random id `uuid4()` of `save_model` is a parameter `freshId`.
- **The engine's output** is a value of `EngineOutput`: the topic listing,
  the label map and the size map.
- **Word scores** are floats that the service only stores and returns. They
  are modelled as an opaque 64-bit pattern.
- **Deleting an absent S3 key.** S3's `delete_object` is modelled as raising
  `NoSuchKey` when the key is absent. That is the behaviour the `except`
  clause of `remove_model` is written for.
- **List order.** `list_models` applies no `ORDER BY`, so a page follows
  the storage order of the `topic_model` rows.

## Model

| member | source | states |
|---|---|---|
| `Decimal.IntToDecimal` | service/api/utils.py:22-23 | the version's text reads back as the same integer; it is digits with a leading minus exactly for a negative version, and has no leading zero, so it is the one canonical text |
| `Decimal.IntToDecimalInjective` | service/api/utils.py:22-23 | two versions have the same text exactly when they are equal |
| `ApiUtils.GetModelFilename` | service/api/utils.py:22-23 | splitting the key `"{model_id}_{version}"` at its first '_' gives back the model id and the version; the key is exactly the model id, '_', and the version's canonical decimal text, so it is longer than the bare id |
| `ApiUtils.ModelFilenameInjective` | service/api/utils.py:22-23 | two (model id, version) pairs share an artifact key exactly when they are the same pair |
| `ApiUtils.SaveModel` | service/api/utils.py:26-40 | returns the given id, or the fresh one when none is given; the model is stored under that id's versioned key; every other key keeps its object |
| `ApiUtils.LoadModel` | service/api/utils.py:43-56 | succeeds exactly when the versioned key is present and returns its object; otherwise the error is 404 "Model not found" |
| `ApiUtils.SaveThenLoad` | service/api/utils.py:26-56 | loading the returned id and version right after a save gives the saved model back |
| `ApiUtils.SaveKeepsOtherVersions` | service/api/utils.py:26-56 | saving one (id, version) does not change what any other (id, version) loads |
| `ApiUtils.DeleteObject` | service/api/endpoints/models.py:73-74 | deleting a present key removes exactly that key; an absent key raises `NoSuchKey` naming it |
| `ApiUtils.TopicsFromEngine` | service/api/utils.py:62-70 | succeeds exactly when every topic index is a key of both the label map and the size map, and otherwise names a missing index; on success gives one record per engine topic in order, with label, size, index and words in rank order |
| `ApiUtils.EngineTopicsRoundTrip` | service/api/utils.py:62-70 | the records give back the engine's (index, ranked words) listing unchanged |
| `ApiUtils.SaveTopics` | service/api/utils.py:59-71 | succeeds exactly when every topic index has a label and a size and, if there is any topic, the model row is stored; a missing key fails with that key, an unstored model row with a foreign-key violation; an empty engine output changes nothing; on success the model rows are unchanged, existing topic and word rows are kept, one topic row per engine topic is appended under the model row with its label, size and index, and the store constraints are kept |
| `ApiUtils.SavedTopicsListInEngineOrder` | service/api/utils.py:59-71 | for a stored model row and an engine output whose indices all have labels and sizes, the save succeeds, and listing the model version with words lists each new topic with exactly its engine words, in rank order |
| `CrudBase.Get` | service/crud/base.py:24-25 | returns a stored row with the requested key, and nothing exactly when no row has that key |
| `CrudBase.GetFindsStoredRow` | service/crud/base.py:24-25 | with unique keys, getting a stored row's key returns that row |
| `CrudBase.GetMulti` | service/crud/base.py:27-31 | returns the rows from position `skip` on, at most `limit` of them, in storage order |
| `CrudBase.GetMultiDefaults` | service/crud/base.py:27-29 | without arguments the window is the first 100 rows |
| `CrudBase.GetMultiPagesConcatenate` | service/crud/base.py:27-31 | two adjacent windows together read the same rows as one window spanning both |
| `CrudBase.Create` | service/crud/base.py:33-42 | appends one row with the given fields under a fresh key and returns it; the table stays valid; a get of the new key finds the row |
| `CrudBase.UpdateData` | service/crud/base.py:52-55 | a dict is applied as given; a schema object contributes only its explicitly set fields |
| `CrudBase.MergeFields` | service/crud/base.py:56-58 | the row keeps its column names; columns named by the update take the new values, the others keep the old ones |
| `CrudBase.MergeFieldsIdempotent` | service/crud/base.py:56-58 | applying the same update twice gives the same row as applying it once |
| `CrudBase.SchemaUpdateKeepsUnsetFields` | service/crud/base.py:52-58 | a field that a schema object did not set explicitly keeps its stored value |
| `CrudBase.Update` | service/crud/base.py:44-62 | fails exactly when the object's row is no longer stored; otherwise the row with the object's key gets the merged columns, every other row keeps its position and value, keys stay unique, and a get finds the updated row |
| `CrudBase.RemoveAsWritten` | service/crud/base.py:64-70 | returns the row with the key, if any, but leaves the table unchanged |
| `CrudBase.RemoveAsWrittenKeepsRow` | service/crud/base.py:64-70 | a row reported as removed can still be read back under its key |
| `CrudBase.Remove` | service/crud/base.py:64-70 | the corrected removal within one table: the row with the key goes, every other row of that table stays (the ORM cascades to other tables are not included), the key is no longer present, and the table stays valid |
| `Models.TopicWithoutWordsIsEmpty` | service/models/models.py:67-68 | a topic with words built without words has an empty word list and the given topic |
| `Tables.WhereAppend` | service/models/models.py:39-41 | deleting rows keeps the remaining rows in their storage order: filtering two runs of rows equals filtering each and joining the results |
| `Models.CascadeDelete` | service/models/models.py:39-41 | deleting a `topic_model` row removes exactly that row, its topics and their words; the counters are unchanged; the store constraints are kept and the key is gone |
| `Models.CascadeDeleteKeepsOwnership` | service/models/models.py:75-80 | after the cascade every remaining topic still has its model row and every remaining word still has its topic |
| `TopicModelCrud.GetByIdVersion` | service/crud/topic_model.py:14-20 | finds a stored row with that model id and version, and nothing exactly when there is none |
| `TopicModelCrud.GetByIdVersionDetermined` | service/models/models.py:36 | under the uniqueness constraint the lookup returns the one row that carries the pair |
| `TopicModelCrud.RemoveByIdVersion` | service/crud/topic_model.py:22-31 | an unknown pair changes nothing and reports nothing; otherwise the found row goes with its topics and words, every other row stays, the three key counters are unchanged, the constraints are kept, and the pair is no longer found |
| `TopicModelCrud.MaxVersion` | service/crud/topic_model.py:33-40 | SQL `max(version)`: NULL exactly when the model id has no rows, otherwise a stored version that is at least every other one |
| `TopicModelCrud.GetMaxVersion` | service/crud/topic_model.py:33-40 | 0 when the model id has no versions, otherwise the largest stored version |
| `TopicModelCrud.SameVersionsSameMax` | service/crud/topic_model.py:33-39 | the maximum depends only on the versions stored for the model id, so rows of other ids do not affect it |
| `TopicModelCrud.NextVersionIsFree` | service/crud/topic_model.py:33-40 | the version one past the maximum is never taken |
| `TopicModelCrud.CreateTopicModel` | service/crud/base.py:33-42 | inserting a pair that is already stored is refused with a uniqueness violation, and only then; otherwise exactly one row with the pair is appended under a fresh key, and the other tables and the constraints are kept |
| `TopicModelCrud.CreateDefaultsToVersionOne` | service/models/models.py:29-31 | a model created without a version is stored as version 1; the create succeeds exactly when (model id, 1) is not yet stored, so always for a model id without versions |
| `TopicModelCrud.NextVersionBecomesMax` | service/crud/topic_model.py:33-40 | creating version max + 1 succeeds, makes it the new maximum, and leaves every other model's maximum unchanged |
| `TopicCrud.SortByCountDesc` | service/crud/topic.py:21 | the result is ordered by count, descending, and is a permutation of the input |
| `TopicCrud.GetModelTopics` | service/crud/topic.py:14-25 | lists exactly the topics whose parent row carries the pair, each once as often as stored, ordered by count descending; words are attached exactly when asked for |
| `TopicCrud.WithWordsSameTopics` | service/crud/topic.py:23-24 | asking for words changes neither which topics are listed nor their order |
| `TopicCrud.ListedTopicCarriesItsWords` | service/crud/topic.py:14-25 | a topic of the version is listed, and listed with its stored words |
| `TopicCrud.UnknownPairHasNoTopics` | service/crud/topic.py:17-20 | a pair with no `topic_model` row lists no topics |
| `TopicCrud.InsertTopicWords` | service/crud/topic.py:35-36 | the new topic reads back exactly the entry's words in order, and every other topic's words are unchanged |
| `TopicCrud.InsertTopicKeepsValid` | service/crud/topic.py:30-36 | adding one topic with its words under a stored model row keeps every table constraint |
| `TopicCrud.InsertTopicsKeepsValid` | service/crud/topic.py:27-38 | adding a batch under a stored model row keeps every table constraint |
| `TopicCrud.InsertTopicsReadBack` | service/crud/topic.py:30-36 | the i-th new topic owns exactly the i-th entry's words, in order |
| `TopicCrud.SaveTopics` | service/crud/topic.py:27-38 | a non-empty batch is refused with a foreign-key violation exactly when the model row is not stored; an empty batch changes nothing and always succeeds; otherwise existing rows are kept, one topic row per entry is appended under the model row with the entry's fields, and the constraints are kept |
| `TopicCrud.SaveTopicsReadBack` | service/crud/topic.py:27-38 | after a save, the i-th new topic's key was unused before, and that topic owns exactly the i-th entry's words |
| `TopicCrud.SavedTopicListedWithWords` | service/crud/topic.py:14-38 | a topic saved for a model row is listed under that row's (model id, version), with the entry's words |
| `ModelsEndpoint.ListModelsAsWritten` | service/api/endpoints/models.py:22-28 | the `CRUDTopicModel` object defines no `paginate` method, so the listing fails with an attribute error naming `paginate` whatever is stored and whatever page is asked for |
| `ModelsEndpoint.ListModels` | service/api/endpoints/models.py:22-28 | the corrected listing: the page holds the (model id, version) of the rows from `offset` on, at most `limit` of them, in storage order, and the total is the row count |
| `ModelsEndpoint.ListModelsPagesConcatenate` | service/api/endpoints/models.py:22-28 | two adjacent pages list the same versions as one page spanning both |
| `ModelsEndpoint.ListModelsWholeTable` | service/api/endpoints/models.py:22-28 | a page as large as the table lists every stored version |
| `ModelsEndpoint.GetTopics` | service/api/endpoints/models.py:31-40 | lists exactly the topic records of the version's topics, one per stored topic row (as a multiset), ordered by count descending; an unknown version lists nothing |
| `ModelsEndpoint.GetTopicsInfo` | service/api/endpoints/models.py:43-56 | lists the same topics as `get_topics`, same length and same topic at every position; entry i carries the stored words of exactly the topic row listed at position i, and is a topic of the version |
| `ModelsEndpoint.RemoveModelAsWritten` | service/api/endpoints/models.py:59-76 | the metadata store is left as `remove_by_id_version` leaves it, whatever the reply; the reply is "ok" exactly when an object is stored under the bare model id, otherwise 404 "Model not found"; only that key may go, and every other key keeps its object |
| `ModelsEndpoint.RemoveAsWrittenLeavesArtifact` | service/api/endpoints/models.py:73 | the version's saved artifact loads afterwards exactly as before |
| `ModelsEndpoint.RemoveAsWrittenAfterSave` | service/api/endpoints/models.py:73 | a model saved and then removed gets the reply 404 "Model not found" and still loads |
| `ModelsEndpoint.RemoveUnknownPairAsWritten` | service/api/endpoints/models.py:72-75 | for a pair with no row the metadata is unchanged and the reply is "ok" exactly when an object is stored under the bare model id |
| `ModelsEndpoint.NotFoundAfterMetadataDeleted` | service/api/endpoints/models.py:71-75 | when the row exists and the artifact delete fails, the reply is 404 "Model not found" although the row is already gone |
| `ModelsEndpoint.RemoveModel` | service/api/endpoints/models.py:59-76 | the corrected removal deletes the version's artifact key: "ok" exactly when that artifact existed, otherwise a 404 with the artifacts unchanged; only that key may go and every other key keeps its object; the metadata store is left as `remove_by_id_version` leaves it; afterwards the version no longer loads and every other version loads as before |
| `ModelsEndpoint.RemovedModelHasNoTopics` | service/api/endpoints/models.py:71-72 | after a removal neither listing shows a topic of the removed version |
| `ModelsEndpoint.SaveThenRemove` | service/api/endpoints/models.py:71-76 | removal undoes a save: the reply is "ok" and the version no longer loads |

## Left out

- The engine itself (fitting, prediction, topic extraction, visualizations) is left out. Only its output (topic listing, labels, sizes) enters, as a value.
- Serialization is left out. `joblib` bytes and the S3 object body are not modelled; the stored model is an opaque value.
- Sessions are left out. Async sessions, concurrent requests and transaction isolation are not modelled; every operation is one atomic step on the stores.
- `utils.save_topics`: nothing in it commits. The model assumes the caller commits the same session afterwards, and treats the call as the same atomic insertion as `crud.topic.save_topics`; if no commit follows, the added rows are discarded, which is not modelled.
- Connection failures and other database or S3 outages are left out. The only failures modelled are the constraint violations, an update of a row that is gone, the missing topic key, `NoSuchKey` and the missing attribute.
- S3's real `delete_object` does not fail on an absent key. The model follows the `NoSuchKey` behaviour that `remove_model`'s `except` clause expects.
- The cascades configured on the many-to-one sides (a word's topic, a topic's model) are left out. None of the operations as written deletes a word or a topic on its own, so they never fire there.
- `CrudBase.Remove`: the corrected removal is a single-table delete. An awaited ORM delete also runs the configured cascades: a `topic_model` row takes its topics and their words with it, which `Models.CascadeDelete` models, and a topic row (`crud.topic` inherits `remove`) takes its parent `topic_model` row and so every sibling topic. Those cascades are not part of `CrudBase.Remove`.
- `CrudBase.Update`: the primary key is kept out of the updatable columns. Setting `id` through `update` is not modelled.
- `CrudBase.Update`: the generic update works on one table and does not see the unique (model id, version) constraint, so an update of a `topic_model` row to a pair another row holds, which raises an integrity error at commit, is not modelled.
- `CrudBase.Update`: the whole of the caller's object is written back. The database's UPDATE writes only the changed columns and `refresh` returns the stored row, so an object whose unchanged fields are stale, after a concurrent write, gives a different row there; concurrency is outside the model.
- `ApiUtils.SavedTopicsListInEngineOrder`: the words come back in the engine's rank order only under the row-order assumption above. The `word` table has no rank column and the words are loaded without `ORDER BY`, so the database does not promise this order.
- `TopicCrud.SavedTopicListedWithWords`: the listed words equal the entry's words in order only under the row-order assumption above, for the same reason.
- `TopicModelCrud.NextVersionBecomesMax`: integers are unbounded. The database's INTEGER columns (ids, `version`, `count`, `topic_index`) are 32-bit, so creating version max + 1 when max is 2147483647 fails there with an out-of-range error and succeeds in the model.
- `CrudBase.GetMulti`: `skip` and `limit` are natural numbers. The database rejects a negative OFFSET or LIMIT, and that error is not modelled.
- Word scores are floats that are never computed with, so no floating-point behaviour is modelled.
- `ModelsEndpoint.ListModels`: the page's `limit` and `offset` come from the pagination library's request parameters, so no defaults are modelled.
- `ModelsEndpoint.ListModels`: the library's page metadata beyond the total count is not modelled.
- `topic_sizes` may in the engine be a counter that returns 0 for a missing key. The model treats it as a plain map that raises on a missing key, as a `dict` does.
- Request validation, routing, settings, the schema wrappers, training and visualization endpoints and the sample dataset loader are outside this model.

## Findings

| source | as written | input that shows it | evidently intended | confidence | as-written member | corrected member |
|---|---|---|---|---|---|---|
| service/api/endpoints/models.py:73 | `remove_model` deletes the object under `str(model_id)`, but `save_model` stores it under `"{model_id}_{version}"` | save a model with version 1, then remove that id and version: the artifact is still there, and the reply is 404 "Model not found" (or "ok" with a store that ignores absent keys) | delete the key `get_model_filename(model_id, version)` | high; not executed | `ModelsEndpoint.RemoveAsWrittenAfterSave` | `ModelsEndpoint.RemoveModel` |
| service/crud/base.py:67-68 | `remove` calls `db.delete(obj)` and `db.commit()` on an async session without `await`, so neither takes effect | any stored row: `remove` returns it and it is still in the table | await both calls so the row is deleted | high; not executed | `CrudBase.RemoveAsWrittenKeepsRow` | `CrudBase.Remove` |
| service/api/endpoints/models.py:28 | `list_models` calls `crud.topic_model.paginate`, which neither `CRUDBase` nor `CRUDTopicModel` defines | any request, even with stored models: the attribute lookup raises | pass a `topic_model` select to the pagination library's `paginate` | medium; not executed | `ModelsEndpoint.ListModelsAsWritten` | `ModelsEndpoint.ListModels` |

=== FILE: api_utils.dfy ===
/**
 * The artifact side of model persistence: version-qualified object keys,
 * saving and loading the serialized model as an opaque value, and turning
 * the engine's topic output into topic and word rows.
 */
module ApiUtils {
  import opened Results
  import opened Uuids
  import opened Decimal
  import opened Models
  import TopicCrud

  const NotFoundStatus := 404
  const ModelNotFound := "Model not found"

  /** An HTTP error response raised to the framework. */
  datatype HttpError = HttpError(statusCode: int, detail: string)

  /** Errors the object store raises. */
  datatype S3Error = NoSuchKey(key: string)

  /** The object store's bucket: key to (serialized) model. */
  type ArtifactStore<A> = map<string, A>

  function FirstIndexOf(s: string, c: char): (r: Option<nat>)
    ensures r.Some? ==> r.value < |s| && s[r.value] == c && c !in s[..r.value]
    ensures r.None? ==> c !in s
  {
    if |s| == 0 then None
    else if s[0] == c then Some(0)
    else match FirstIndexOf(s[1..], c)
      case None => None
      case Some(i) =>
        assert s[..i + 1] == [s[0]] + s[1..][..i];
        Some(i + 1)
  }

  /** Splits a key at its first '_' into a model id and a version, when it has that shape. */
  function ParseModelFilename(k: string): Option<TopicModelBase> {
    match FirstIndexOf(k, '_')
    case None => None
    case Some(i) =>
      if !IsCanonical(k[..i]) then None
      else match ParseDecimal(k[i + 1..])
        case None => None
        case Some(v) => Some(TopicModelBase(k[..i], v))
  }

  /**
   * The key of a model version's artifact: the model id's text, '_', then
   * the version in decimal. Splitting at the first '_' recovers both parts,
   * because the id's text has no '_' in it.
   */
  function GetModelFilename(modelId: UuidText, version: int := 1): (k: string)
    ensures ParseModelFilename(k) == Some(TopicModelBase(modelId, version))
    ensures |k| > |modelId|
    ensures k[..|modelId|] == modelId && k[|modelId|] == '_' && k[|modelId| + 1..] == IntToDecimal(version)
  {
    var k := modelId + "_" + IntToDecimal(version);
    OnlyHexAndHyphens(modelId, '_');
    assert k[..36] == modelId && k[36] == '_' && k[37..] == IntToDecimal(version);
    var i := FirstIndexOf(k, '_');
    assert i == Some(36);
    k
  }

  /** Different model versions never share an artifact key. */
  lemma ModelFilenameInjective(a: TopicModelBase, b: TopicModelBase)
    ensures GetModelFilename(a.modelId, a.version) == GetModelFilename(b.modelId, b.version) <==> a == b
  {
    if GetModelFilename(a.modelId, a.version) == GetModelFilename(b.modelId, b.version) {
      assert Some(a) == ParseModelFilename(GetModelFilename(a.modelId, a.version));
      assert Some(b) == ParseModelFilename(GetModelFilename(b.modelId, b.version));
    }
  }

  /**
   * Stores `topicModel` under the key of (model id, version) and returns the
   * model id: the one given, or `freshId` (standing for `uuid4()`) when none
   * is given. Every other key keeps its object.
   */
  function SaveModel<A>(store: ArtifactStore<A>, topicModel: A, freshId: UuidText,
                        modelId: Option<UuidText> := None, version: int := 1): (r: (ArtifactStore<A>, UuidText))
    ensures modelId.Some? ==> r.1 == modelId.value
    ensures modelId.None? ==> r.1 == freshId
    ensures GetModelFilename(r.1, version) in r.0 && r.0[GetModelFilename(r.1, version)] == topicModel
    ensures forall k :: k != GetModelFilename(r.1, version) ==> (k in r.0 <==> k in store)
    ensures forall k :: k != GetModelFilename(r.1, version) && k in store ==> r.0[k] == store[k]
  {
    var id := if modelId.None? then freshId else modelId.value;
    (store[GetModelFilename(id, version) := topicModel], id)
  }

  /** Reads the artifact of (model id, version); a missing key is a 404 "Model not found". */
  function LoadModel<A>(store: ArtifactStore<A>, modelId: UuidText, version: int := 1): (r: Result<A, HttpError>)
    ensures r.Ok? <==> GetModelFilename(modelId, version) in store
    ensures r.Ok? ==> r.value == store[GetModelFilename(modelId, version)]
    ensures r.Err? ==> r.error == HttpError(NotFoundStatus, ModelNotFound)
  {
    var key := GetModelFilename(modelId, version);
    if key in store then Ok(store[key]) else Err(HttpError(NotFoundStatus, ModelNotFound))
  }

  /** Loading what was just saved under the returned id gives the saved model back. */
  lemma SaveThenLoad<A>(store: ArtifactStore<A>, topicModel: A, freshId: UuidText, modelId: Option<UuidText>, version: int)
    ensures var (store', id) := SaveModel(store, topicModel, freshId, modelId, version);
            LoadModel(store', id, version) == Ok(topicModel)
  {
  }

  /** Saving one version leaves what every other version loads unchanged. */
  lemma SaveKeepsOtherVersions<A>(store: ArtifactStore<A>, topicModel: A, freshId: UuidText,
                                  modelId: Option<UuidText>, version: int, other: TopicModelBase)
    requires other != TopicModelBase(SaveModel(store, topicModel, freshId, modelId, version).1, version)
    ensures LoadModel(SaveModel(store, topicModel, freshId, modelId, version).0, other.modelId, other.version)
         == LoadModel(store, other.modelId, other.version)
  {
    var id := SaveModel(store, topicModel, freshId, modelId, version).1;
    ModelFilenameInjective(other, TopicModelBase(id, version));
  }

  /** The object store's delete: the key's object goes; an absent key raises `NoSuchKey`. */
  function DeleteObject<A>(store: ArtifactStore<A>, key: string): (r: Result<ArtifactStore<A>, S3Error>)
    ensures r.Err? <==> key !in store
    ensures r.Err? ==> r.error == NoSuchKey(key)
    ensures r.Ok? ==> r.value.Keys == store.Keys - {key}
    ensures r.Ok? ==> forall k :: k in r.value ==> r.value[k] == store[k]
  {
    if key in store then Ok(store - {key}) else Err(NoSuchKey(key))
  }

  /** What the engine reports about a fitted model: ranked top words per topic index, labels and sizes. */
  datatype EngineOutput = EngineOutput(
    topics: seq<(int, seq<(string, Score)>)>,
    topicNames: map<int, string>,
    topicSizes: map<int, int>)

  /** Word records for the engine's ranked `(word, score)` pairs, rank order kept. */
  function WordsFromEngine(ws: seq<(string, Score)>): (r: seq<WordBase>)
    ensures |r| == |ws|
    ensures forall k :: 0 <= k < |ws| ==> r[k].name == ws[k].0 && r[k].score == ws[k].1
  {
    seq(|ws|, k requires 0 <= k < |ws| => WordBase(ws[k].0, ws[k].1))
  }

  /** The engine's ranked pairs recovered from stored word records. */
  function EngineWordsOf(words: seq<WordBase>): (r: seq<(string, Score)>)
    ensures |r| == |words|
  {
    seq(|words|, k requires 0 <= k < |words| => (words[k].name, words[k].score))
  }

  /**
   * One topic record per engine topic, in the engine's order: its index, its
   * label from `topicNames`, its size from `topicSizes`, its words in rank
   * order. A topic index missing from either map raises, as the dict lookup does.
   */
  function TopicsFromEngine(topics: seq<(int, seq<(string, Score)>)>, names: map<int, string>, sizes: map<int, int>)
    : (r: Result<seq<TopicWithWords>, Failure>)
    ensures r.Ok? <==> forall i :: 0 <= i < |topics| ==> topics[i].0 in names && topics[i].0 in sizes
    ensures r.Err? ==> exists i :: 0 <= i < |topics| && r.error == MissingTopicKey(topics[i].0)
                                   && (topics[i].0 !in names || topics[i].0 !in sizes)
    ensures r.Ok? ==> |r.value| == |topics|
    ensures r.Ok? ==> forall i :: 0 <= i < |topics| ==>
      && r.value[i].topic.topicIndex == topics[i].0
      && r.value[i].topic.name == names[topics[i].0]
      && r.value[i].topic.count == sizes[topics[i].0]
      && r.value[i].topWords == WordsFromEngine(topics[i].1)
  {
    if |topics| == 0 then Ok([])
    else
      var (index, ws) := topics[0];
      if index !in names || index !in sizes then Err(MissingTopicKey(index))
      else match TopicsFromEngine(topics[1..], names, sizes)
        case Err(e) => Err(e)
        case Ok(rest) =>
          Ok([TopicWithWords(TopicBase(names[index], sizes[index], index), WordsFromEngine(ws))] + rest)
  }

  /** The stored topic records give back the engine's index-to-ranked-words listing. */
  function EngineTopicsOf(rows: seq<TopicWithWords>): (r: seq<(int, seq<(string, Score)>)>)
    ensures |r| == |rows|
  {
    seq(|rows|, i requires 0 <= i < |rows| => (rows[i].topic.topicIndex, EngineWordsOf(rows[i].topWords)))
  }

  /** Nothing of the engine's topic listing is lost or reordered on the way to rows. */
  lemma EngineTopicsRoundTrip(e: EngineOutput)
    requires TopicsFromEngine(e.topics, e.topicNames, e.topicSizes).Ok?
    ensures EngineTopicsOf(TopicsFromEngine(e.topics, e.topicNames, e.topicSizes).value) == e.topics
  {
    var rows := TopicsFromEngine(e.topics, e.topicNames, e.topicSizes).value;
    forall i | 0 <= i < |e.topics|
      ensures EngineTopicsOf(rows)[i] == e.topics[i]
    {
      var ws := e.topics[i].1;
      assert EngineWordsOf(WordsFromEngine(ws)) == ws;
    }
  }

  /**
   * `save_topics`: the engine's topics, with their words, stored under
   * `model`. A topic index missing from the label or size map raises; an
   * engine output with topics fails on an unstored model row; an empty one
   * stores nothing.
   */
  function SaveTopics(s: MetaStore, e: EngineOutput, model: TopicModelRow): (r: Result<MetaStore, Failure>)
    ensures r.Ok? <==> TopicsFromEngine(e.topics, e.topicNames, e.topicSizes).Ok?
                       && (|e.topics| > 0 ==> model.id in s.models.Ids())
    ensures TopicsFromEngine(e.topics, e.topicNames, e.topicSizes).Err? ==> r.Err? && r.error.MissingTopicKey?
    ensures TopicsFromEngine(e.topics, e.topicNames, e.topicSizes).Err? ==>
      r == Err(TopicsFromEngine(e.topics, e.topicNames, e.topicSizes).error)
    ensures TopicsFromEngine(e.topics, e.topicNames, e.topicSizes).Ok? && r.Err? ==> r.error == ForeignKeyViolation(model.id)
    ensures |e.topics| == 0 ==> r == Ok(s)
    ensures r.Ok? ==> r.value.models == s.models
    ensures r.Ok? ==> |r.value.topics.rows| == |s.topics.rows| + |e.topics|
    ensures r.Ok? ==> r.value.topics.rows[..|s.topics.rows|] == s.topics.rows
    ensures r.Ok? ==> |r.value.words.rows| >= |s.words.rows| && r.value.words.rows[..|s.words.rows|] == s.words.rows
    ensures r.Ok? ==> forall i :: 0 <= i < |e.topics| ==>
      r.value.topics.rows[|s.topics.rows| + i].fields
      == TopicFields(model.id, TopicBase(e.topicNames[e.topics[i].0], e.topicSizes[e.topics[i].0], e.topics[i].0))
    ensures r.Ok? && Valid(s) ==> Valid(r.value)
  {
    var rows :- TopicsFromEngine(e.topics, e.topicNames, e.topicSizes);
    var r := TopicCrud.SaveTopics(s, rows, model);
    EngineRowsStored(s, e, model, rows, r);
    r
  }

  lemma EngineRowsStored(s: MetaStore, e: EngineOutput, model: TopicModelRow, rows: seq<TopicWithWords>, r: Result<MetaStore, Failure>)
    requires TopicsFromEngine(e.topics, e.topicNames, e.topicSizes) == Ok(rows)
    requires r == TopicCrud.SaveTopics(s, rows, model)
    ensures r.Ok? ==> forall i :: 0 <= i < |e.topics| ==>
      r.value.topics.rows[|s.topics.rows| + i].fields
      == TopicFields(model.id, TopicBase(e.topicNames[e.topics[i].0], e.topicSizes[e.topics[i].0], e.topics[i].0))
  {
    if r.Ok? {
      forall i | 0 <= i < |e.topics|
        ensures r.value.topics.rows[|s.topics.rows| + i].fields
             == TopicFields(model.id, TopicBase(e.topicNames[e.topics[i].0], e.topicSizes[e.topics[i].0], e.topics[i].0))
      {
        assert r.value.topics.rows[|s.topics.rows| + i].fields == TopicFields(model.id, rows[i].topic);
      }
    }
  }

  /**
   * Word rank is preserved end to end: after saving the engine's topics under
   * `model`, listing that model version with words gives each new topic its
   * words in exactly the engine's order.
   */
  lemma SavedTopicsListInEngineOrder(s: MetaStore, e: EngineOutput, model: TopicModelRow, i: nat)
    requires Valid(s) && model in s.models.rows && i < |e.topics|
    requires TopicsFromEngine(e.topics, e.topicNames, e.topicSizes).Ok?
    ensures SaveTopics(s, e, model).Ok?
    ensures var s' := SaveTopics(s, e, model).value;
            var listed := TopicCrud.GetModelTopics(s', model.fields.modelId, model.fields.version, true);
            var t := s'.topics.rows[|s.topics.rows| + i];
            && t in TopicCrud.RowsOf(listed)
            && forall lt :: lt in listed && lt.row == t ==> lt.topWords == Some(WordsFromEngine(e.topics[i].1))
  {
    var rows := TopicsFromEngine(e.topics, e.topicNames, e.topicSizes).value;
    assert model.id in s.models.Ids();
    assert SaveTopics(s, e, model) == TopicCrud.SaveTopics(s, rows, model);
    TopicCrud.ValidWordKeysBelow(s);
    TopicCrud.SavedTopicListedWithWords(s, rows, model, i);
  }
}

=== FILE: crud_base.dfy ===
/**
 * The generic create/read/update/delete helpers every table shares:
 * lookup by primary key, an offset/limit window, insertion with a fresh
 * key, field-merge update and removal by key.
 */
module CrudBase {
  import opened Results
  import opened Tables

  const DefaultSkip: nat := 0
  const DefaultLimit: nat := 100

  function Min(a: int, b: int): int {
    if a <= b then a else b
  }

  function Max(a: int, b: int): int {
    if a <= b then b else a
  }

  function FindId<F>(rows: seq<Row<F>>, id: nat): (r: Option<Row<F>>)
    ensures r.Some? ==> r.value.id == id && exists i :: 0 <= i < |rows| && rows[i] == r.value
    ensures r.None? ==> forall i :: 0 <= i < |rows| ==> rows[i].id != id
  {
    if |rows| == 0 then None
    else if rows[0].id == id then Some(rows[0])
    else
      var r := FindId(rows[1..], id);
      assert forall i :: 1 <= i < |rows| ==> rows[i] == rows[1..][i - 1];
      r
  }

  /** The row with primary key `id`, if any; a pure read, so the table is left as it was. */
  function Get<F(==)>(t: Table<F>, id: nat): (r: Option<Row<F>>)
    ensures r.Some? ==> r.value in t.rows && r.value.id == id
    ensures r.None? <==> id !in t.Ids()
  {
    FindId(t.rows, id)
  }

  /** With unique keys, `Get` finds the one row that has the key. */
  lemma GetFindsStoredRow<F>(t: Table<F>, row: Row<F>)
    requires t.Valid() && row in t.rows
    ensures Get(t, row.id) == Some(row)
  {
    var i :| 0 <= i < |t.rows| && t.rows[i] == row;
    var found := Get(t, row.id).value;
    var j :| 0 <= j < |t.rows| && t.rows[j] == found;
    assert i == j;
  }

  /** The `skip`/`limit` window of the table in storage order. */
  function GetMulti<F>(t: Table<F>, skip: nat := DefaultSkip, limit: nat := DefaultLimit): (r: seq<Row<F>>)
    ensures |r| == Min(limit, Max(0, |t.rows| - skip))
    ensures forall i :: 0 <= i < |r| ==> r[i] == t.rows[skip + i]
  {
    if skip >= |t.rows| then [] else t.rows[skip..skip + Min(limit, |t.rows| - skip)]
  }

  /** Without arguments the window is the first hundred rows. */
  lemma GetMultiDefaults<F>(t: Table<F>)
    ensures GetMulti(t) == t.rows[..Min(100, |t.rows|)]
  {
  }

  /** Two adjacent windows read the same rows as one window spanning both. */
  lemma GetMultiPagesConcatenate<F>(t: Table<F>, skip: nat, a: nat, b: nat)
    ensures GetMulti(t, skip, a) + GetMulti(t, skip + a, b) == GetMulti(t, skip, a + b)
  {
    var left, right, whole := GetMulti(t, skip, a), GetMulti(t, skip + a, b), GetMulti(t, skip, a + b);
    assert |left + right| == |whole|;
    forall i | 0 <= i < |whole|
      ensures (left + right)[i] == whole[i]
    {
      if i >= |left| {
        assert (left + right)[i] == right[i - |left|];
      }
    }
  }

  /** Inserts one row built from `fields` under the next key of the sequence and returns it. */
  function Create<F(==)>(t: Table<F>, fields: F): (r: (Table<F>, Row<F>))
    ensures r.1.fields == fields
    ensures r.0.rows == t.rows + [r.1]
    ensures t.Valid() ==> r.0.Valid() && r.1.id !in t.Ids()
    ensures t.Valid() ==> Get(r.0, r.1.id) == Some(r.1)
  {
    var row := Row(t.nextId, fields);
    var t' := Table(t.rows + [row], t.nextId + 1);
    if t.Valid() then
      assert t'.Valid();
      GetFindsStoredRow(t', row);
      (t', row)
    else
      (t', row)
  }

  /** A row seen as `jsonable_encoder` sees it: column name to value. */
  type Record<V> = map<string, V>

  /** What `update` may receive: a plain dict, or a schema object that knows which fields were set explicitly. */
  datatype UpdateInput<V> =
    | Dict(data: map<string, V>)
    | Schema(values: map<string, V>, setFields: set<string>)

  /** The dict `update` applies: the dict itself, or the schema's explicitly set fields only. */
  function UpdateData<V>(objIn: UpdateInput<V>): (r: map<string, V>)
    ensures objIn.Dict? ==> r == objIn.data
    ensures objIn.Schema? ==> r.Keys == objIn.values.Keys * objIn.setFields
    ensures objIn.Schema? ==> forall f :: f in r ==> r[f] == objIn.values[f]
  {
    match objIn
    case Dict(data) => data
    case Schema(values, setFields) => map f | f in values && f in setFields :: values[f]
  }

  /** Overwrites the fields of `obj` that `data` names; keys of `data` that `obj` lacks are ignored. */
  function MergeFields<V>(obj: Record<V>, data: map<string, V>): (r: Record<V>)
    ensures r.Keys == obj.Keys
    ensures forall f :: f in obj && f in data ==> r[f] == data[f]
    ensures forall f :: f in obj && f !in data ==> r[f] == obj[f]
  {
    map f | f in obj :: if f in data then data[f] else obj[f]
  }

  /** Applying the same update twice changes nothing the first application did not. */
  lemma MergeFieldsIdempotent<V>(obj: Record<V>, data: map<string, V>)
    ensures MergeFields(MergeFields(obj, data), data) == MergeFields(obj, data)
  {
  }

  /** A field a schema object did not set explicitly keeps its stored value. */
  lemma SchemaUpdateKeepsUnsetFields<V>(obj: Record<V>, values: map<string, V>, setFields: set<string>, f: string)
    requires f in obj && f !in setFields
    ensures MergeFields(obj, UpdateData(Schema(values, setFields)))[f] == obj[f]
  {
  }

  /** `rows` with every row keyed `row.id` replaced by `row`. */
  function ReplaceRow<F>(rows: seq<Row<F>>, row: Row<F>): (r: seq<Row<F>>)
    ensures |r| == |rows|
    ensures forall i :: 0 <= i < |rows| ==> r[i] == if rows[i].id == row.id then row else rows[i]
  {
    seq(|rows|, i requires 0 <= i < |rows| => if rows[i].id == row.id then row else rows[i])
  }

  lemma ReplaceRowKeepsKeys<F>(t: Table<F>, row: Row<F>)
    requires t.Valid() && row.id in t.Ids()
    ensures Table(ReplaceRow(t.rows, row), t.nextId).Valid()
    ensures row in ReplaceRow(t.rows, row)
  {
    var rows := ReplaceRow(t.rows, row);
    var k :| k in t.rows && k.id == row.id;
    var i :| 0 <= i < |t.rows| && t.rows[i] == k;
    assert rows[i] == row;
    forall x | x in rows
      ensures x.id < t.nextId
    {
      var j :| 0 <= j < |rows| && rows[j] == x;
      assert x == row || x == t.rows[j];
    }
  }

  /** Why `update` fails: the object's row was deleted since it was read, so the write-back matches no row. */
  datatype UpdateError = RowGone(id: nat)

  /**
   * Writes the merged fields back to the stored row of `dbObj` and returns it;
   * every other row keeps its position and value. When no stored row has
   * the object's key any more, the commit fails and the table is unchanged.
   */
  function Update<V(==)>(t: Table<Record<V>>, dbObj: Row<Record<V>>, objIn: UpdateInput<V>)
    : (r: Result<(Table<Record<V>>, Row<Record<V>>), UpdateError>)
    ensures r.Err? <==> dbObj.id !in t.Ids()
    ensures r.Err? ==> r.error == RowGone(dbObj.id)
    ensures r.Ok? ==> r.value.1.id == dbObj.id
    ensures r.Ok? ==> r.value.1.fields.Keys == dbObj.fields.Keys
    ensures r.Ok? ==> forall f :: f in dbObj.fields && f in UpdateData(objIn) ==> r.value.1.fields[f] == UpdateData(objIn)[f]
    ensures r.Ok? ==> forall f :: f in dbObj.fields && f !in UpdateData(objIn) ==> r.value.1.fields[f] == dbObj.fields[f]
    ensures r.Ok? ==> |r.value.0.rows| == |t.rows| && r.value.0.nextId == t.nextId
    ensures r.Ok? ==> forall i :: 0 <= i < |t.rows| && t.rows[i].id != dbObj.id ==> r.value.0.rows[i] == t.rows[i]
    ensures r.Ok? ==> forall i :: 0 <= i < |t.rows| && t.rows[i].id == dbObj.id ==> r.value.0.rows[i] == r.value.1
    ensures r.Ok? && t.Valid() ==> r.value.0.Valid() && Get(r.value.0, dbObj.id) == Some(r.value.1)
  {
    if dbObj.id !in t.Ids() then Err(RowGone(dbObj.id))
    else
      var row := Row(dbObj.id, MergeFields(dbObj.fields, UpdateData(objIn)));
      var t' := Table(ReplaceRow(t.rows, row), t.nextId);
      if t.Valid() then
        ReplaceRowKeepsKeys(t, row);
        GetFindsStoredRow(t', row);
        Ok((t', row))
      else
        Ok((t', row))
  }

  /**
   * `remove` as the source writes it: the session's `delete` and `commit`
   * are coroutines that are never awaited, so nothing is deleted; the row
   * found (if any) is still returned.
   */
  function RemoveAsWritten<F(==)>(t: Table<F>, id: nat): (r: (Table<F>, Option<Row<F>>))
    ensures r.0 == t
    ensures r.1.Some? ==> r.1.value in t.rows && r.1.value.id == id
    ensures r.1.None? <==> id !in t.Ids()
  {
    (t, Get(t, id))
  }

  /** The row reported as removed is still in the table afterwards. */
  lemma RemoveAsWrittenKeepsRow<F>(t: Table<F>, row: Row<F>)
    requires t.Valid() && row in t.rows
    ensures RemoveAsWritten(t, row.id).1 == Some(row)
    ensures Get(RemoveAsWritten(t, row.id).0, row.id) == Some(row)
  {
    GetFindsStoredRow(t, row);
  }

  /** `remove` with the delete awaited: the row with key `id` goes, every other row stays. */
  function Remove<F(==,!new)>(t: Table<F>, id: nat): (r: (Table<F>, Option<Row<F>>))
    ensures r.1.Some? ==> r.1.value in t.rows && r.1.value.id == id
    ensures r.1.None? <==> id !in t.Ids()
    ensures r.1.None? ==> r.0 == t
    ensures forall x :: x in r.0.rows <==> x in t.rows && x.id != id
    ensures id !in r.0.Ids()
    ensures t.Valid() ==> r.0.Valid()
  {
    match Get(t, id)
    case None =>
      (t, None)
    case Some(row) =>
      (DeleteWhere(t, (x: Row<F>) => x.id != id), Some(row))
  }
}

=== FILE: crud_topic.dfy ===
/**
 * Topic rows of one model version: the listing query (join on the parent
 * `topic_model` row, ordered by count, optionally with words) and the
 * batch insert of topics with their words.
 */
module TopicCrud {
  import opened Results
  import opened Uuids
  import opened Tables
  import opened Models

  /** Ids of the `topic_model` rows carrying (model_id, version): the join's filter. */
  function ParentIds(s: MetaStore, modelId: UuidText, version: int): set<nat> {
    set m | m in s.models.rows && m.fields == TopicModelBase(modelId, version) :: m.id
  }

  /** The topic rows the join selects, in storage order. */
  function MatchingTopics(s: MetaStore, modelId: UuidText, version: int): seq<TopicRow> {
    var parents := ParentIds(s, modelId, version);
    Where(s.topics.rows, (t: TopicRow) => t.fields.topicModelId in parents)
  }

  /** `ORDER BY -count`: each topic's count is at least that of every later one. */
  predicate CountNonIncreasing(rows: seq<TopicRow>) {
    forall i, j :: 0 <= i < j < |rows| ==> rows[i].fields.topic.count >= rows[j].fields.topic.count
  }

  function InsertByCount(x: TopicRow, rows: seq<TopicRow>): (r: seq<TopicRow>)
    requires CountNonIncreasing(rows)
    ensures CountNonIncreasing(r)
    ensures multiset(r) == multiset(rows) + multiset{x}
    ensures forall y :: y in r ==> y == x || y in rows
  {
    if |rows| == 0 then [x]
    else if x.fields.topic.count >= rows[0].fields.topic.count then
      ConsKeepsOrder(x, rows);
      [x] + rows
    else
      var rest := InsertByCount(x, rows[1..]);
      assert rows == [rows[0]] + rows[1..];
      ConsKeepsOrder(rows[0], rest);
      [rows[0]] + rest
  }

  lemma ConsKeepsOrder(head: TopicRow, tail: seq<TopicRow>)
    requires CountNonIncreasing(tail)
    requires forall y :: y in tail ==> head.fields.topic.count >= y.fields.topic.count
    ensures CountNonIncreasing([head] + tail)
  {
    var r := [head] + tail;
    forall i, j | 0 <= i < j < |r|
      ensures r[i].fields.topic.count >= r[j].fields.topic.count
    {
      assert r[j] == tail[j - 1];
      if i > 0 {
        assert r[i] == tail[i - 1];
      }
    }
  }

  /**
   * One admissible order for `ORDER BY -count`: the database leaves ties
   * unordered, and this keeps them in storage order.
   */
  function SortByCountDesc(rows: seq<TopicRow>): (r: seq<TopicRow>)
    ensures CountNonIncreasing(r)
    ensures multiset(r) == multiset(rows)
  {
    if |rows| == 0 then []
    else
      assert rows == [rows[0]] + rows[1..];
      InsertByCount(rows[0], SortByCountDesc(rows[1..]))
  }

  /** The words of topic `topicId` in storage (insertion) order. */
  function WordsOf(rows: seq<WordRow>, topicId: nat): (r: seq<WordBase>)
    ensures forall w :: w in r ==> exists row :: row in rows && row.fields == WordFields(topicId, w)
  {
    if |rows| == 0 then []
    else (if rows[0].fields.topicId == topicId then [rows[0].fields.word] else []) + WordsOf(rows[1..], topicId)
  }

  /** A topic as the listing returns it; its words are loaded only when asked for. */
  datatype LoadedTopic = LoadedTopic(row: TopicRow, topWords: Option<seq<WordBase>>)

  function RowsOf(r: seq<LoadedTopic>): (rows: seq<TopicRow>)
    ensures |rows| == |r| && forall i :: 0 <= i < |r| ==> rows[i] == r[i].row
  {
    seq(|r|, i requires 0 <= i < |r| => r[i].row)
  }

  /**
   * The topics whose parent row has this (model_id, version), all of them,
   * ordered by count descending; `withWords` attaches each topic's words.
   */
  function GetModelTopics(s: MetaStore, modelId: UuidText, version: int, withWords: bool := false): (r: seq<LoadedTopic>)
    ensures forall t :: t in RowsOf(r) <==> t in s.topics.rows && t.fields.topicModelId in ParentIds(s, modelId, version)
    ensures multiset(RowsOf(r)) == multiset(MatchingTopics(s, modelId, version))
    ensures CountNonIncreasing(RowsOf(r))
    ensures forall i :: 0 <= i < |r| ==> r[i].topWords == if withWords then Some(WordsOf(s.words.rows, r[i].row.id)) else None
  {
    var rows := SortByCountDesc(MatchingTopics(s, modelId, version));
    var r := seq(|rows|, i requires 0 <= i < |rows| =>
      LoadedTopic(rows[i], if withWords then Some(WordsOf(s.words.rows, rows[i].id)) else None));
    assert RowsOf(r) == rows;
    assert forall t :: t in rows <==> t in MatchingTopics(s, modelId, version) by {
      forall t
        ensures t in rows <==> t in MatchingTopics(s, modelId, version)
      {
        assert t in rows <==> t in multiset(rows);
      }
    }
    r
  }

  /** Asking for words changes neither which topics come back nor their order. */
  lemma WithWordsSameTopics(s: MetaStore, modelId: UuidText, version: int)
    ensures RowsOf(GetModelTopics(s, modelId, version, true)) == RowsOf(GetModelTopics(s, modelId, version, false))
  {
  }

  /** A topic of the version is listed, and listed with its stored words. */
  lemma ListedTopicCarriesItsWords(s: MetaStore, modelId: UuidText, version: int, t: TopicRow)
    requires t in s.topics.rows
    requires exists m :: m in s.models.rows && m.id == t.fields.topicModelId && m.fields == TopicModelBase(modelId, version)
    ensures t in RowsOf(GetModelTopics(s, modelId, version, true))
    ensures forall lt :: lt in GetModelTopics(s, modelId, version, true) && lt.row == t ==>
      lt.topWords == Some(WordsOf(s.words.rows, t.id))
  {
    var listed := GetModelTopics(s, modelId, version, true);
    forall lt | lt in listed && lt.row == t
      ensures lt.topWords == Some(WordsOf(s.words.rows, t.id))
    {
      var j :| 0 <= j < |listed| && listed[j] == lt;
    }
  }

  /** An unknown (model_id, version) has no topics. */
  lemma UnknownPairHasNoTopics(s: MetaStore, modelId: UuidText, version: int, withWords: bool)
    requires forall m :: m in s.models.rows ==> m.fields != TopicModelBase(modelId, version)
    ensures GetModelTopics(s, modelId, version, withWords) == []
  {
  }

  /** Word rows for `ws` attached to topic `topicId`, keyed from `firstId` on. */
  function NewWordRows(topicId: nat, ws: seq<WordBase>, firstId: nat): (r: seq<WordRow>)
    ensures |r| == |ws|
    ensures forall k :: 0 <= k < |r| ==> r[k] == Row(firstId + k, WordFields(topicId, ws[k]))
  {
    seq(|ws|, k requires 0 <= k < |ws| => Row(firstId + k, WordFields(topicId, ws[k])))
  }

  lemma {:induction false} WordsOfAppend(a: seq<WordRow>, b: seq<WordRow>, topicId: nat)
    ensures WordsOf(a + b, topicId) == WordsOf(a, topicId) + WordsOf(b, topicId)
    decreases |a|
  {
    if |a| == 0 {
      assert a + b == b;
    } else {
      var head := if a[0].fields.topicId == topicId then [a[0].fields.word] else [];
      assert (a + b)[0] == a[0];
      assert (a + b)[1..] == a[1..] + b;
      assert WordsOf(a + b, topicId) == head + WordsOf(a[1..] + b, topicId);
      WordsOfAppend(a[1..], b, topicId);
      assert head + (WordsOf(a[1..], topicId) + WordsOf(b, topicId))
          == (head + WordsOf(a[1..], topicId)) + WordsOf(b, topicId);
    }
  }

  lemma {:induction false} WordsOfAbsent(rows: seq<WordRow>, topicId: nat)
    requires forall w :: w in rows ==> w.fields.topicId != topicId
    ensures WordsOf(rows, topicId) == []
    decreases |rows|
  {
    if |rows| > 0 {
      assert rows[0] in rows;
      assert forall w :: w in rows[1..] ==> w in rows;
      WordsOfAbsent(rows[1..], topicId);
    }
  }

  lemma {:induction false} WordsOfNewRows(topicId: nat, ws: seq<WordBase>, firstId: nat)
    ensures WordsOf(NewWordRows(topicId, ws, firstId), topicId) == ws
    decreases |ws|
  {
    if |ws| > 0 {
      assert NewWordRows(topicId, ws, firstId)[1..] == NewWordRows(topicId, ws[1..], firstId + 1);
      WordsOfNewRows(topicId, ws[1..], firstId + 1);
    }
  }

  /** Every word row points at a topic key below `bound`. */
  predicate WordKeysBelow(words: seq<WordRow>, bound: nat) {
    forall w :: w in words ==> w.fields.topicId < bound
  }

  lemma ValidWordKeysBelow(s: MetaStore)
    requires Valid(s)
    ensures WordKeysBelow(s.words.rows, s.topics.nextId)
  {
    forall w | w in s.words.rows
      ensures w.fields.topicId < s.topics.nextId
    {
      var t :| t in s.topics.rows && t.id == w.fields.topicId;
    }
  }

  /** Adds one topic under `modelRowId` and its words, in order, with fresh keys. */
  function InsertTopic(s: MetaStore, entry: TopicWithWords, modelRowId: nat): (r: MetaStore)
    ensures r.models == s.models
    ensures r.topics == Table(s.topics.rows + [Row(s.topics.nextId, TopicFields(modelRowId, entry.topic))], s.topics.nextId + 1)
    ensures r.words == Table(s.words.rows + NewWordRows(s.topics.nextId, entry.topWords, s.words.nextId),
                             s.words.nextId + |entry.topWords|)
  {
    MetaStore(
      s.models,
      Table(s.topics.rows + [Row(s.topics.nextId, TopicFields(modelRowId, entry.topic))], s.topics.nextId + 1),
      Table(s.words.rows + NewWordRows(s.topics.nextId, entry.topWords, s.words.nextId), s.words.nextId + |entry.topWords|))
  }

  /**
   * The new topic reads back exactly the entry's words, in order, and every
   * other topic key reads back what it did before.
   */
  lemma InsertTopicWords(s: MetaStore, entry: TopicWithWords, modelRowId: nat)
    ensures var r := InsertTopic(s, entry, modelRowId);
            forall id :: id != s.topics.nextId ==> WordsOf(r.words.rows, id) == WordsOf(s.words.rows, id)
    ensures var r := InsertTopic(s, entry, modelRowId);
            WordKeysBelow(s.words.rows, s.topics.nextId) ==>
              && WordKeysBelow(r.words.rows, r.topics.nextId)
              && WordsOf(r.words.rows, s.topics.nextId) == entry.topWords
  {
    var topicId := s.topics.nextId;
    var added := NewWordRows(topicId, entry.topWords, s.words.nextId);
    var r := InsertTopic(s, entry, modelRowId);
    forall id | id != topicId
      ensures WordsOf(r.words.rows, id) == WordsOf(s.words.rows, id)
    {
      WordsOfAppend(s.words.rows, added, id);
      WordsOfAbsent(added, id);
    }
    if WordKeysBelow(s.words.rows, topicId) {
      WordsOfAppend(s.words.rows, added, topicId);
      WordsOfNewRows(topicId, entry.topWords, s.words.nextId);
      WordsOfAbsent(s.words.rows, topicId);
      assert WordKeysBelow(r.words.rows, r.topics.nextId) by {
        assert forall w :: w in r.words.rows ==> w in s.words.rows || w in added;
      }
    }
  }

  /** Inserting a topic under a stored topic model keeps every table constraint. */
  lemma InsertTopicKeepsValid(s: MetaStore, entry: TopicWithWords, modelRowId: nat)
    ensures Valid(s) && modelRowId in s.models.Ids() ==> Valid(InsertTopic(s, entry, modelRowId))
  {
    var r := InsertTopic(s, entry, modelRowId);
    if !Valid(s) || modelRowId !in s.models.Ids() {
      return;
    }
    var topic := Row(s.topics.nextId, TopicFields(modelRowId, entry.topic));
    var added := NewWordRows(s.topics.nextId, entry.topWords, s.words.nextId);
    assert s.topics.Ids() <= r.topics.Ids();
    assert topic in r.topics.rows;
    assert r.topics.Valid();
    assert r.words.Valid() by {
      forall i, j | 0 <= i < j < |r.words.rows|
        ensures r.words.rows[i].id != r.words.rows[j].id
      {
        if j >= |s.words.rows| && i < |s.words.rows| {
          assert r.words.rows[i] in s.words.rows;
        }
      }
    }
    assert WordsOwned(r) by {
      forall w | w in r.words.rows
        ensures w.fields.topicId in r.topics.Ids()
      {
        if w !in s.words.rows {
          var k :| 0 <= k < |r.words.rows| && r.words.rows[k] == w;
          assert w == added[k - |s.words.rows|];
        }
      }
    }
  }

  /** Inserts the entries one after another; existing rows are never touched. */
  function InsertTopics(s: MetaStore, entries: seq<TopicWithWords>, modelRowId: nat): (r: MetaStore)
    ensures r.models == s.models
    ensures |r.topics.rows| == |s.topics.rows| + |entries|
    ensures r.topics.rows[..|s.topics.rows|] == s.topics.rows
    ensures forall i :: 0 <= i < |entries| ==>
      r.topics.rows[|s.topics.rows| + i] == Row(s.topics.nextId + i, TopicFields(modelRowId, entries[i].topic))
    ensures r.topics.nextId == s.topics.nextId + |entries|
    ensures |r.words.rows| >= |s.words.rows| && r.words.rows[..|s.words.rows|] == s.words.rows
    decreases |entries|
  {
    if |entries| == 0 then s
    else InsertTopics(InsertTopic(s, entries[0], modelRowId), entries[1..], modelRowId)
  }

  lemma {:induction false} InsertTopicsKeepsValid(s: MetaStore, entries: seq<TopicWithWords>, modelRowId: nat)
    ensures Valid(s) && modelRowId in s.models.Ids() ==> Valid(InsertTopics(s, entries, modelRowId))
    decreases |entries|
  {
    if |entries| > 0 {
      InsertTopicKeepsValid(s, entries[0], modelRowId);
      InsertTopicsKeepsValid(InsertTopic(s, entries[0], modelRowId), entries[1..], modelRowId);
    }
  }

  /** Later topics get later keys, so the words of a topic stored before the batch are unchanged. */
  lemma {:induction false} InsertTopicsKeepsOldWords(s: MetaStore, entries: seq<TopicWithWords>, modelRowId: nat, id: nat)
    requires id < s.topics.nextId
    ensures WordsOf(InsertTopics(s, entries, modelRowId).words.rows, id) == WordsOf(s.words.rows, id)
    decreases |entries|
  {
    if |entries| > 0 {
      InsertTopicWords(s, entries[0], modelRowId);
      InsertTopicsKeepsOldWords(InsertTopic(s, entries[0], modelRowId), entries[1..], modelRowId, id);
    }
  }

  /** The i-th inserted topic reads back exactly the i-th entry's words, in order. */
  lemma {:induction false} InsertTopicsReadBack(s: MetaStore, entries: seq<TopicWithWords>, modelRowId: nat, i: nat)
    requires WordKeysBelow(s.words.rows, s.topics.nextId) && i < |entries|
    ensures WordsOf(InsertTopics(s, entries, modelRowId).words.rows, s.topics.nextId + i) == entries[i].topWords
    decreases |entries|
  {
    var s1 := InsertTopic(s, entries[0], modelRowId);
    assert InsertTopics(s, entries, modelRowId) == InsertTopics(s1, entries[1..], modelRowId);
    InsertTopicWords(s, entries[0], modelRowId);
    if i == 0 {
      InsertTopicsKeepsOldWords(s1, entries[1..], modelRowId, s.topics.nextId);
    } else {
      InsertTopicsReadBack(s1, entries[1..], modelRowId, i - 1);
      assert entries[1..][i - 1] == entries[i];
    }
  }

  /**
   * `save_topics`: one topic per entry under `model`, carrying the entry's
   * name, count and index; a non-empty batch is refused when `model` is not
   * a stored row, while an empty batch inserts nothing and never reads
   * `model`. Existing rows are neither changed nor removed.
   */
  function SaveTopics(s: MetaStore, entries: seq<TopicWithWords>, model: TopicModelRow): (r: Result<MetaStore, Failure>)
    ensures r.Err? <==> |entries| > 0 && model.id !in s.models.Ids()
    ensures r.Err? ==> r.error == ForeignKeyViolation(model.id)
    ensures |entries| == 0 ==> r == Ok(s)
    ensures r.Ok? ==> r.value.models == s.models
    ensures r.Ok? ==> |r.value.topics.rows| == |s.topics.rows| + |entries|
    ensures r.Ok? ==> r.value.topics.rows[..|s.topics.rows|] == s.topics.rows
    ensures r.Ok? ==> |r.value.words.rows| >= |s.words.rows| && r.value.words.rows[..|s.words.rows|] == s.words.rows
    ensures r.Ok? ==> forall i :: 0 <= i < |entries| ==>
      r.value.topics.rows[|s.topics.rows| + i] == Row(s.topics.nextId + i, TopicFields(model.id, entries[i].topic))
    ensures r.Ok? && Valid(s) ==> Valid(r.value)
  {
    if |entries| > 0 && model.id !in s.models.Ids() then Err(ForeignKeyViolation(model.id))
    else
      InsertTopicsKeepsValid(s, entries, model.id);
      Ok(InsertTopics(s, entries, model.id))
  }

  /**
   * Word rank is preserved: after `save_topics`, the i-th new topic owns
   * exactly the i-th entry's words, in the entry's order.
   */
  lemma SaveTopicsReadBack(s: MetaStore, entries: seq<TopicWithWords>, model: TopicModelRow, i: nat)
    requires Valid(s) && model.id in s.models.Ids() && i < |entries|
    ensures s.topics.nextId + i !in s.topics.Ids()
    ensures WordsOf(SaveTopics(s, entries, model).value.words.rows, s.topics.nextId + i) == entries[i].topWords
  {
    ValidWordKeysBelow(s);
    InsertTopicsReadBack(s, entries, model.id, i);
  }

  /** A topic inserted for `model` is listed under the model's (model_id, version) with the entry's words. */
  lemma SavedTopicListedWithWords(s: MetaStore, entries: seq<TopicWithWords>, model: TopicModelRow, i: nat)
    requires WordKeysBelow(s.words.rows, s.topics.nextId) && model in s.models.rows && i < |entries|
    ensures var s' := InsertTopics(s, entries, model.id);
            var listed := GetModelTopics(s', model.fields.modelId, model.fields.version, true);
            var t := s'.topics.rows[|s.topics.rows| + i];
            && t in RowsOf(listed)
            && forall lt :: lt in listed && lt.row == t ==> lt.topWords == Some(entries[i].topWords)
  {
    var s' := InsertTopics(s, entries, model.id);
    InsertedTopicStored(s, entries, model.id, i);
    ListedWithWords(s', model, s'.topics.rows[|s.topics.rows| + i], entries[i].topWords);
  }

  /** The i-th inserted topic row is stored under `modelRowId` and owns the i-th entry's words. */
  lemma InsertedTopicStored(s: MetaStore, entries: seq<TopicWithWords>, modelRowId: nat, i: nat)
    requires WordKeysBelow(s.words.rows, s.topics.nextId) && i < |entries|
    ensures var s' := InsertTopics(s, entries, modelRowId);
            var t := s'.topics.rows[|s.topics.rows| + i];
            && t in s'.topics.rows
            && t.fields.topicModelId == modelRowId
            && s'.models == s.models
            && WordsOf(s'.words.rows, t.id) == entries[i].topWords
  {
    var s' := InsertTopics(s, entries, modelRowId);
    InsertTopicsReadBack(s, entries, modelRowId, i);
    assert s'.topics.rows[|s.topics.rows| + i].id == s.topics.nextId + i;
  }

  /** A stored topic of `model`'s row is listed for that row's key, with its stored words. */
  lemma ListedWithWords(s': MetaStore, model: TopicModelRow, t: TopicRow, ws: seq<WordBase>)
    requires t in s'.topics.rows && model in s'.models.rows && t.fields.topicModelId == model.id
    requires WordsOf(s'.words.rows, t.id) == ws
    ensures var listed := GetModelTopics(s', model.fields.modelId, model.fields.version, true);
            && t in RowsOf(listed)
            && forall lt :: lt in listed && lt.row == t ==> lt.topWords == Some(ws)
  {
    ListedTopicCarriesItsWords(s', model.fields.modelId, model.fields.version, t);
  }
}

=== FILE: crud_topic_model.dfy ===
/**
 * Version bookkeeping on `topic_model` rows: lookup and removal by
 * (model_id, version), creation under the uniqueness constraint, and the
 * largest stored version of a logical model.
 */
module TopicModelCrud {
  import opened Results
  import opened Uuids
  import opened Tables
  import opened Models
  import CrudBase

  /** The first row in storage order whose columns are `key`. */
  function FirstWithFields(rows: seq<TopicModelRow>, key: TopicModelBase): (r: Option<TopicModelRow>)
    ensures r.Some? ==> r.value in rows && r.value.fields == key
    ensures r.None? <==> forall m :: m in rows ==> m.fields != key
  {
    if |rows| == 0 then None
    else if rows[0].fields == key then Some(rows[0])
    else
      assert forall m :: m in rows ==> m == rows[0] || m in rows[1..];
      FirstWithFields(rows[1..], key)
  }

  /** A row with this (model_id, version), or `None` when there is none. */
  function GetByIdVersion(s: MetaStore, modelId: UuidText, version: int): (r: Option<TopicModelRow>)
    ensures r.Some? ==> r.value in s.models.rows
    ensures r.Some? ==> r.value.fields.modelId == modelId && r.value.fields.version == version
    ensures r.None? <==> forall m :: m in s.models.rows ==> m.fields != TopicModelBase(modelId, version)
  {
    FirstWithFields(s.models.rows, TopicModelBase(modelId, version))
  }

  /** Under the uniqueness constraint the row found is the only one with that pair. */
  lemma GetByIdVersionDetermined(s: MetaStore, row: TopicModelRow)
    requires UniqueModelVersions(s.models.rows) && row in s.models.rows
    ensures GetByIdVersion(s, row.fields.modelId, row.fields.version) == Some(row)
  {
    var found := GetByIdVersion(s, row.fields.modelId, row.fields.version);
    assert found.Some? by {
      assert row.fields == TopicModelBase(row.fields.modelId, row.fields.version);
    }
    SameFieldsSameRow(s.models.rows, found.value, row);
  }

  /**
   * Deletes the row with this (model_id, version), cascading to its topics
   * and words, and returns it; an absent pair returns `None` and changes nothing.
   */
  function RemoveByIdVersion(s: MetaStore, modelId: UuidText, version: int): (r: (MetaStore, Option<TopicModelRow>))
    ensures r.1.None? <==> forall m :: m in s.models.rows ==> m.fields != TopicModelBase(modelId, version)
    ensures r.1.None? ==> r.0 == s
    ensures r.0.models.nextId == s.models.nextId && r.0.topics.nextId == s.topics.nextId && r.0.words.nextId == s.words.nextId
    ensures r.1.Some? ==> r.1.value in s.models.rows && r.1.value.fields == TopicModelBase(modelId, version)
    ensures r.1.Some? ==> forall m :: m in r.0.models.rows <==> m in s.models.rows && m.id != r.1.value.id
    ensures r.1.Some? ==> forall t :: t in r.0.topics.rows <==> t in s.topics.rows && t.fields.topicModelId != r.1.value.id
    ensures r.1.Some? ==> forall w :: w in r.0.words.rows <==> w in s.words.rows && w.fields.topicId !in OwnedTopicIds(s, r.1.value.id)
    ensures Valid(s) ==> Valid(r.0)
    ensures Valid(s) ==> GetByIdVersion(r.0, modelId, version) == None
  {
    match GetByIdVersion(s, modelId, version)
    case None => (s, None)
    case Some(row) =>
      var s' := CascadeDelete(s, row.id);
      if Valid(s) then
        forall m | m in s'.models.rows
          ensures m.fields != TopicModelBase(modelId, version)
        {
          if m.fields == row.fields {
            SameFieldsSameRow(s.models.rows, m, row);
          }
        }
        (s', Some(row))
      else
        (s', Some(row))
  }

  /** Every version stored for `modelId`. */
  function VersionsOf(s: MetaStore, modelId: UuidText): set<int> {
    set m | m in s.models.rows && m.fields.modelId == modelId :: m.fields.version
  }

  /** SQL `max(version)` over the rows of `modelId`: `None` (NULL) when there are none. */
  function MaxVersion(rows: seq<TopicModelRow>, modelId: UuidText): (r: Option<int>)
    ensures r.None? <==> forall m :: m in rows ==> m.fields.modelId != modelId
    ensures r.Some? ==> exists m :: m in rows && m.fields.modelId == modelId && m.fields.version == r.value
    ensures r.Some? ==> forall m :: m in rows && m.fields.modelId == modelId ==> m.fields.version <= r.value
  {
    if |rows| == 0 then None
    else
      assert forall m :: m in rows ==> m == rows[0] || m in rows[1..];
      var rest := MaxVersion(rows[1..], modelId);
      if rows[0].fields.modelId != modelId then rest
      else match rest
        case None => Some(rows[0].fields.version)
        case Some(v) => Some(if v < rows[0].fields.version then rows[0].fields.version else v)
  }

  /** Python's `x or 0` on a scalar query result: NULL and 0 both give 0. */
  function OrZero(x: Option<int>): int {
    match x
    case None => 0
    case Some(v) => if v != 0 then v else 0
  }

  /** The largest stored version of `modelId`, or 0 when it has none. */
  function GetMaxVersion(s: MetaStore, modelId: UuidText): (r: int)
    ensures VersionsOf(s, modelId) == {} ==> r == 0
    ensures VersionsOf(s, modelId) != {} ==> r in VersionsOf(s, modelId)
    ensures forall v :: v in VersionsOf(s, modelId) ==> v <= r
  {
    var x := MaxVersion(s.models.rows, modelId);
    if x.Some? then
      var m :| m in s.models.rows && m.fields.modelId == modelId && m.fields.version == x.value;
      assert x.value in VersionsOf(s, modelId);
      OrZero(x)
    else
      assert VersionsOf(s, modelId) == {};
      OrZero(x)
  }

  /** One past the largest stored version is never taken, so it is a safe next version. */
  lemma NextVersionIsFree(s: MetaStore, modelId: UuidText)
    ensures GetByIdVersion(s, modelId, GetMaxVersion(s, modelId) + 1) == None
  {
    var v := GetMaxVersion(s, modelId) + 1;
    forall m | m in s.models.rows
      ensures m.fields != TopicModelBase(modelId, v)
    {
      if m.fields.modelId == modelId {
        assert m.fields.version in VersionsOf(s, modelId);
      }
    }
  }

  /**
   * `create` on the `topic_model` table: inserts a row for `base` unless the
   * (model_id, version) pair is taken, in which case the insert is refused.
   */
  function CreateTopicModel(s: MetaStore, base: TopicModelBase): (r: Result<(MetaStore, TopicModelRow), Failure>)
    ensures r.Err? <==> exists m :: m in s.models.rows && m.fields == base
    ensures r.Err? ==> r.error == UniqueViolation(base)
    ensures r.Ok? ==> r.value.1.fields == base
    ensures r.Ok? && s.models.Valid() ==> r.value.1.id !in s.models.Ids()
    ensures r.Ok? ==> r.value.0.models.rows == s.models.rows + [r.value.1]
    ensures r.Ok? ==> r.value.0.topics == s.topics && r.value.0.words == s.words
    ensures r.Ok? && Valid(s) ==> Valid(r.value.0)
  {
    match GetByIdVersion(s, base.modelId, base.version)
    case Some(_) => Err(UniqueViolation(base))
    case None =>
      var (models', row) := CrudBase.Create(s.models, base);
      var s' := s.(models := models');
      if Valid(s) then
        assert UniqueModelVersions(models'.rows) by {
          forall i, j | 0 <= i < j < |models'.rows|
            ensures models'.rows[i].fields != models'.rows[j].fields
          {
            if j == |s.models.rows| {
              assert models'.rows[i] in s.models.rows;
            }
          }
        }
        assert s.models.Ids() <= models'.Ids();
        Ok((s', row))
      else
        Ok((s', row))
  }

  /**
   * A model created without an explicit version gets version 1: the create
   * succeeds exactly when (model id, 1) is not yet stored, and then stores
   * version 1; in particular it succeeds for a model id without versions.
   */
  lemma CreateDefaultsToVersionOne(s: MetaStore, modelId: UuidText)
    ensures CreateTopicModel(s, TopicModelBase(modelId)).Ok? <==> GetByIdVersion(s, modelId, 1).None?
    ensures CreateTopicModel(s, TopicModelBase(modelId)).Ok? ==> CreateTopicModel(s, TopicModelBase(modelId)).value.1.fields.version == 1
    ensures VersionsOf(s, modelId) == {} ==> CreateTopicModel(s, TopicModelBase(modelId)).Ok?
  {
    if VersionsOf(s, modelId) == {} {
      assert GetMaxVersion(s, modelId) + 1 == 1;
      NextVersionIsFree(s, modelId);
    }
  }

  /**
   * Sequential versioning: creating version `max + 1` always succeeds, makes
   * it the new maximum, and leaves the maximum of every other model alone.
   */
  lemma NextVersionBecomesMax(s: MetaStore, modelId: UuidText)
    ensures var v := GetMaxVersion(s, modelId) + 1;
            var r := CreateTopicModel(s, TopicModelBase(modelId, v));
            && r.Ok?
            && GetMaxVersion(r.value.0, modelId) == v
            && forall other :: other != modelId ==> GetMaxVersion(r.value.0, other) == GetMaxVersion(s, other)
  {
    var v := GetMaxVersion(s, modelId) + 1;
    NextVersionIsFree(s, modelId);
    var r := CreateTopicModel(s, TopicModelBase(modelId, v));
    var s' := r.value.0;
    VersionsAfterAppend(s, s', r.value.1, modelId);
    forall other | other != modelId
      ensures GetMaxVersion(s', other) == GetMaxVersion(s, other)
    {
      VersionsAfterAppend(s, s', r.value.1, other);
      SameVersionsSameMax(s', other, s, other);
    }
  }

  /** Appending a row adds its version to its own model's versions and to no other's. */
  lemma VersionsAfterAppend(s: MetaStore, s': MetaStore, row: TopicModelRow, modelId: UuidText)
    requires s'.models.rows == s.models.rows + [row]
    ensures VersionsOf(s', modelId) == VersionsOf(s, modelId) + (if row.fields.modelId == modelId then {row.fields.version} else {})
  {
    assert forall m :: m in s'.models.rows <==> m in s.models.rows || m == row;
  }

  /** The maximum depends on the set of stored versions alone. */
  lemma SameVersionsSameMax(s: MetaStore, a: UuidText, s': MetaStore, b: UuidText)
    requires VersionsOf(s, a) == VersionsOf(s', b)
    ensures GetMaxVersion(s, a) == GetMaxVersion(s', b)
  {
  }
}

=== FILE: decimal.dfy ===
/**
 * Decimal text of integers, as Python's `f"{v}"` renders an `int`:
 * an optional minus sign followed by digits without leading zeros.
 * `ParseDecimal` is its inverse; the round trip is what makes
 * version-qualified artifact keys unambiguous.
 */
module Decimal {
  import opened Results

  predicate IsDigit(c: char) {
    '0' <= c <= '9'
  }

  predicate AllDigits(s: string) {
    forall i :: 0 <= i < |s| ==> IsDigit(s[i])
  }

  function DigitValue(c: char): nat
    requires IsDigit(c)
  {
    (c as int) - ('0' as int)
  }

  function DigitChar(d: nat): (c: char)
    requires d < 10
    ensures IsDigit(c) && DigitValue(c) == d
  {
    ('0' as int + d) as char
  }

  /** Decimal digits of `n`, most significant first, with no leading zero. */
  function NatToDecimal(n: nat): (s: string)
    ensures 1 <= |s| && AllDigits(s)
    ensures |s| > 1 ==> s[0] != '0'
    decreases n
  {
    if n < 10 then [DigitChar(n)] else NatToDecimal(n / 10) + [DigitChar(n % 10)]
  }

  /** The number a string of digits denotes. */
  function ParseDigits(s: string): nat
    requires AllDigits(s)
  {
    if |s| == 0 then 0 else ParseDigits(s[..|s| - 1]) * 10 + DigitValue(s[|s| - 1])
  }

  /** Reads the text `IntToDecimal` produces back into the integer; anything else is `None`. */
  function ParseDecimal(s: string): Option<int> {
    if |s| > 0 && s[0] == '-' then
      if |s| > 1 && AllDigits(s[1..]) then Some(0 - ParseDigits(s[1..]) as int) else None
    else if |s| > 0 && AllDigits(s) then Some(ParseDigits(s))
    else None
  }

  /**
   * Python's decimal rendering of an `int`: digits with a leading '-'
   * exactly for negative numbers, and no leading zero, so the text is canonical.
   */
  function IntToDecimal(i: int): (s: string)
    ensures ParseDecimal(s) == Some(i)
    ensures forall k :: 0 <= k < |s| ==> IsDigit(s[k]) || (k == 0 && s[k] == '-')
    ensures 0 < |s| && (s[0] == '-' <==> i < 0)
    ensures var d := if i < 0 then s[1..] else s; |d| > 1 ==> d[0] != '0'
  {
    if i < 0 then
      ParseNatToDecimal(-i);
      "-" + NatToDecimal(-i)
    else
      ParseNatToDecimal(i);
      NatToDecimal(i)
  }

  lemma {:induction false} ParseNatToDecimal(n: nat)
    ensures ParseDigits(NatToDecimal(n)) == n
    decreases n
  {
    if n >= 10 {
      var s := NatToDecimal(n / 10) + [DigitChar(n % 10)];
      assert s[..|s| - 1] == NatToDecimal(n / 10);
      ParseNatToDecimal(n / 10);
    }
  }

  /** Distinct integers have distinct decimal texts. */
  lemma IntToDecimalInjective(a: int, b: int)
    ensures IntToDecimal(a) == IntToDecimal(b) <==> a == b
  {
    if IntToDecimal(a) == IntToDecimal(b) {
      assert Some(a) == ParseDecimal(IntToDecimal(a)) == ParseDecimal(IntToDecimal(b)) == Some(b);
    }
  }
}

=== FILE: endpoint_models.dfy ===
/**
 * The `/models` endpoints: listing stored model versions, listing a
 * version's topics with or without their words, and removing a model
 * version from both the metadata store and the artifact store.
 */
module ModelsEndpoint {
  import opened Results
  import opened Uuids
  import opened Tables
  import opened Models
  import CrudBase
  import TopicModelCrud
  import TopicCrud
  import ApiUtils

  const OkMessage := "ok"

  /** The body `remove_model` answers with: a plain message, or a JSON response carrying a status code. */
  datatype Reply = MessageReply(message: string) | JsonReply(statusCode: int, message: string)

  /** The state both stores are left in, and the reply. */
  datatype Removal<A> = Removal(meta: MetaStore, artifacts: ApiUtils.ArtifactStore<A>, reply: Reply)

  /** One page of `topic_model` rows: the window's (model_id, version) pairs and the total row count. */
  datatype Page = Page(items: seq<TopicModelBase>, total: nat)

  /** The methods a `CRUDTopicModel` object has: the generic helpers and the three of its own. */
  const TopicModelCrudMethods: set<string> :=
    {"get", "get_multi", "create", "update", "remove", "get_by_id_version", "remove_by_id_version", "get_max_version"}

  /** An error the framework turns into a server error response. */
  datatype ServerError = AttributeError(name: string)

  /** Looking a method up on the `CRUDTopicModel` object: a name it does not define raises. */
  function LookupMethod(name: string): (r: Result<string, ServerError>)
    ensures r.Ok? <==> name in TopicModelCrudMethods
    ensures r.Err? ==> r.error == AttributeError(name)
  {
    if name in TopicModelCrudMethods then Ok(name) else Err(AttributeError(name))
  }

  /**
   * `list_models` as written: it calls `paginate` on the `CRUDTopicModel`
   * object, which defines no such method, so the listing fails with an
   * attribute error whatever is stored.
   */
  function ListModelsAsWritten(s: MetaStore, limit: nat, offset: nat): (r: Result<Page, ServerError>)
    ensures r == Err(AttributeError("paginate"))
  {
    NoPaginateMethod();
    var found := LookupMethod("paginate");
    if found.Err? then Err(found.error) else Ok(ListModels(s, limit, offset))
  }

  lemma NoPaginateMethod()
    ensures "paginate" !in TopicModelCrudMethods
  {
    assert "paginate" != "get" && "paginate" != "get_multi" && "paginate" != "create" && "paginate" != "update";
    assert "paginate" != "remove" && "paginate" != "get_by_id_version";
    assert "paginate" != "remove_by_id_version" && "paginate" != "get_max_version";
  }

  /** `list_models` as intended: a limit/offset window over the `topic_model` table in storage order. */
  function ListModels(s: MetaStore, limit: nat, offset: nat): (r: Page)
    ensures r.total == |s.models.rows|
    ensures |r.items| == CrudBase.Min(limit, CrudBase.Max(0, |s.models.rows| - offset))
    ensures forall i :: 0 <= i < |r.items| ==> r.items[i] == s.models.rows[offset + i].fields
  {
    var window := CrudBase.GetMulti(s.models, offset, limit);
    Page(seq(|window|, i requires 0 <= i < |window| => window[i].fields), |s.models.rows|)
  }

  /** Two adjacent pages list the same model versions as one page spanning both. */
  lemma ListModelsPagesConcatenate(s: MetaStore, offset: nat, a: nat, b: nat)
    ensures ListModels(s, a, offset).items + ListModels(s, b, offset + a).items == ListModels(s, a + b, offset).items
  {
    var left, right, whole := ListModels(s, a, offset).items, ListModels(s, b, offset + a).items, ListModels(s, a + b, offset).items;
    assert |left + right| == |whole|;
    forall i | 0 <= i < |whole|
      ensures (left + right)[i] == whole[i]
    {
      if i >= |left| {
        assert (left + right)[i] == right[i - |left|];
      }
    }
  }

  /** A page large enough for the whole table lists every stored model version, in storage order. */
  lemma ListModelsWholeTable(s: MetaStore, limit: nat)
    requires limit >= |s.models.rows|
    ensures |ListModels(s, limit, 0).items| == |s.models.rows|
    ensures forall m :: m in s.models.rows ==> m.fields in ListModels(s, limit, 0).items
  {
    var items := ListModels(s, limit, 0).items;
    forall m | m in s.models.rows
      ensures m.fields in items
    {
      var i :| 0 <= i < |s.models.rows| && s.models.rows[i] == m;
      assert items[i] == m.fields;
    }
  }

  /** The topic records of `rows`, in the same order. */
  function TopicsOf(rows: seq<TopicRow>): (r: seq<TopicBase>)
    ensures |r| == |rows| && forall i :: 0 <= i < |rows| ==> r[i] == rows[i].fields.topic
    ensures forall x :: x in r <==> exists t :: t in rows && t.fields.topic == x
  {
    var r := seq(|rows|, i requires 0 <= i < |rows| => rows[i].fields.topic);
    forall t | t in rows
      ensures t.fields.topic in r
    {
      var i :| 0 <= i < |rows| && rows[i] == t;
      assert r[i] == t.fields.topic;
    }
    r
  }

  /** `get_topics`: the version's topics, largest first, without words; an unknown version lists nothing. */
  function GetTopics(s: MetaStore, modelId: UuidText, version: int := 1): (r: seq<TopicBase>)
    ensures forall x :: x in r <==>
      exists t :: t in s.topics.rows && t.fields.topicModelId in TopicCrud.ParentIds(s, modelId, version) && t.fields.topic == x
    ensures multiset(r) == multiset(TopicsOf(TopicCrud.MatchingTopics(s, modelId, version)))
    ensures forall i, j :: 0 <= i < j < |r| ==> r[i].count >= r[j].count
  {
    var rows := TopicCrud.RowsOf(TopicCrud.GetModelTopics(s, modelId, version));
    TopicsOfPermutation(rows, TopicCrud.MatchingTopics(s, modelId, version));
    TopicsOf(rows)
  }

  lemma TopicsOfAppend(a: seq<TopicRow>, b: seq<TopicRow>)
    ensures TopicsOf(a + b) == TopicsOf(a) + TopicsOf(b)
  {
    assert |TopicsOf(a + b)| == |TopicsOf(a) + TopicsOf(b)|;
    forall i | 0 <= i < |a + b|
      ensures TopicsOf(a + b)[i] == (TopicsOf(a) + TopicsOf(b))[i]
    {
      if i >= |a| {
        assert (a + b)[i] == b[i - |a|];
      }
    }
  }

  /** Rearranging the rows rearranges their topic records: one record per row, whatever the order. */
  lemma {:induction false} TopicsOfPermutation(a: seq<TopicRow>, b: seq<TopicRow>)
    requires multiset(a) == multiset(b)
    ensures multiset(TopicsOf(a)) == multiset(TopicsOf(b))
    decreases |a|
  {
    if |a| > 0 {
      var x := a[0];
      assert x in multiset(b);
      var k :| 0 <= k < |b| && b[k] == x;
      var rest := b[..k] + b[k + 1..];
      assert b == b[..k] + [x] + b[k + 1..];
      assert a == [x] + a[1..];
      assert multiset(b) == multiset(b[..k]) + multiset{x} + multiset(b[k + 1..]);
      assert multiset(a) == multiset{x} + multiset(a[1..]);
      assert multiset(rest) == multiset(b[..k]) + multiset(b[k + 1..]);
      assert multiset(a[1..]) == multiset(a) - multiset{x};
      assert multiset(rest) == multiset(b) - multiset{x};
      TopicsOfPermutation(a[1..], rest);
      TopicsOfAppend([x], a[1..]);
      TopicsOfAppend(b[..k] + [x], b[k + 1..]);
      TopicsOfAppend(b[..k], [x]);
      TopicsOfAppend(b[..k], b[k + 1..]);
    } else {
      assert |b| == |multiset(b)| == 0;
    }
  }

  /** `get_topics_info`: the same topics in the same order, each with its stored words in rank order. */
  function GetTopicsInfo(s: MetaStore, modelId: UuidText, version: int := 1): (r: seq<TopicWithWords>)
    ensures |r| == |GetTopics(s, modelId, version)|
    ensures forall i :: 0 <= i < |r| ==> r[i].topic == GetTopics(s, modelId, version)[i]
    ensures forall i :: 0 <= i < |r| ==>
      r[i].topWords == TopicCrud.WordsOf(s.words.rows, TopicCrud.RowsOf(TopicCrud.GetModelTopics(s, modelId, version, true))[i].id)
    ensures forall i :: 0 <= i < |r| ==>
      exists t :: t in s.topics.rows && t.fields.topicModelId in TopicCrud.ParentIds(s, modelId, version)
               && r[i] == TopicWithWords(t.fields.topic, TopicCrud.WordsOf(s.words.rows, t.id))
  {
    var listed := TopicCrud.GetModelTopics(s, modelId, version, true);
    var r := WithWordsOf(listed);
    InfoAgreesWithTopics(s, modelId, version);
    forall i | 0 <= i < |r|
      ensures exists t :: t in s.topics.rows && t.fields.topicModelId in TopicCrud.ParentIds(s, modelId, version)
                       && r[i] == TopicWithWords(t.fields.topic, TopicCrud.WordsOf(s.words.rows, t.id))
    {
      var t := listed[i].row;
      assert TopicCrud.RowsOf(listed)[i] == t;
      assert r[i] == TopicWithWords(t.fields.topic, TopicCrud.WordsOf(s.words.rows, t.id));
    }
    r
  }

  /** Loading the words does not change the listed topics: the same records at the same positions. */
  lemma InfoAgreesWithTopics(s: MetaStore, modelId: UuidText, version: int)
    ensures var r := WithWordsOf(TopicCrud.GetModelTopics(s, modelId, version, true));
            && |r| == |GetTopics(s, modelId, version)|
            && forall i :: 0 <= i < |r| ==> r[i].topic == GetTopics(s, modelId, version)[i]
  {
    TopicCrud.WithWordsSameTopics(s, modelId, version);
  }

  /** Each loaded topic's record with its loaded words; topics loaded without words get none. */
  function WithWordsOf(listed: seq<TopicCrud.LoadedTopic>): (r: seq<TopicWithWords>)
    ensures |r| == |listed|
    ensures forall i :: 0 <= i < |listed| ==>
      r[i] == TopicWithWords(listed[i].row.fields.topic, if listed[i].topWords.Some? then listed[i].topWords.value else [])
  {
    seq(|listed|, i requires 0 <= i < |listed| =>
      TopicWithWords(listed[i].row.fields.topic, if listed[i].topWords.Some? then listed[i].topWords.value else []))
  }

  /** Removing metadata and then the object `key`; a missing object answers 404 "Model not found". */
  function RemoveUnder<A>(meta: MetaStore, artifacts: ApiUtils.ArtifactStore<A>, modelId: UuidText, version: int, key: string)
    : (r: Removal<A>)
    ensures r.meta == TopicModelCrud.RemoveByIdVersion(meta, modelId, version).0
    ensures r.reply == MessageReply(OkMessage) <==> key in artifacts
    ensures r.reply.JsonReply? ==> r.reply == JsonReply(ApiUtils.NotFoundStatus, ApiUtils.ModelNotFound) && r.artifacts == artifacts
    ensures r.reply.MessageReply? ==> r.artifacts == artifacts - {key}
    ensures forall k :: k in r.artifacts ==> k != key && k in artifacts
    ensures forall k :: k != key && k in artifacts ==> k in r.artifacts && r.artifacts[k] == artifacts[k]
  {
    var meta' := TopicModelCrud.RemoveByIdVersion(meta, modelId, version).0;
    match ApiUtils.DeleteObject(artifacts, key)
    case Err(_) => Removal(meta', artifacts, JsonReply(ApiUtils.NotFoundStatus, ApiUtils.ModelNotFound))
    case Ok(artifacts') => Removal(meta', artifacts', MessageReply(OkMessage))
  }

  /**
   * `remove_model` as written: the metadata of (model id, version) is
   * deleted and committed first, then the object stored under the bare
   * model id is deleted.
   */
  function RemoveModelAsWritten<A>(meta: MetaStore, artifacts: ApiUtils.ArtifactStore<A>, modelId: UuidText, version: int := 1)
    : (r: Removal<A>)
    ensures r.reply == MessageReply(OkMessage) <==> modelId in artifacts
    ensures r.reply != MessageReply(OkMessage) ==> r.reply == JsonReply(ApiUtils.NotFoundStatus, ApiUtils.ModelNotFound)
    ensures r.meta == TopicModelCrud.RemoveByIdVersion(meta, modelId, version).0
    ensures forall k :: k in r.artifacts ==> k != modelId && k in artifacts
    ensures forall k :: k != modelId && k in artifacts ==> k in r.artifacts && r.artifacts[k] == artifacts[k]
    ensures Valid(meta) ==> Valid(r.meta) && TopicModelCrud.GetByIdVersion(r.meta, modelId, version).None?
  {
    RemoveUnder(meta, artifacts, modelId, version, modelId)
  }

  /** The saved artifact of the version survives the as-written removal: its key is never the bare model id. */
  lemma RemoveAsWrittenLeavesArtifact<A>(meta: MetaStore, artifacts: ApiUtils.ArtifactStore<A>, modelId: UuidText, version: int)
    ensures ApiUtils.LoadModel(RemoveModelAsWritten(meta, artifacts, modelId, version).artifacts, modelId, version)
         == ApiUtils.LoadModel(artifacts, modelId, version)
  {
    assert ApiUtils.GetModelFilename(modelId, version) != modelId;
  }

  /**
   * Save a model, then remove it: the reply is 404 "Model not found", and
   * the model still loads.
   */
  lemma RemoveAsWrittenAfterSave<A>(topicModel: A)
    ensures var id: UuidText := "00000000-0000-0000-0000-000000000000";
            var (artifacts, _) := ApiUtils.SaveModel(map[], topicModel, id, Some(id), 1);
            var r := RemoveModelAsWritten(MetaStore(Table([], 0), Table([], 0), Table([], 0)), artifacts, id, 1);
            && r.reply == JsonReply(404, "Model not found")
            && ApiUtils.LoadModel(r.artifacts, id, 1) == Ok(topicModel)
  {
    var id: UuidText := "00000000-0000-0000-0000-000000000000";
    var (artifacts, _) := ApiUtils.SaveModel(map[], topicModel, id, Some(id), 1);
    assert artifacts.Keys == {ApiUtils.GetModelFilename(id, 1)};
    RemoveAsWrittenLeavesArtifact(MetaStore(Table([], 0), Table([], 0), Table([], 0)), artifacts, id, 1);
  }

  /**
   * `remove_by_id_version` raises nothing for an unknown pair, so the
   * metadata stays as it was and the artifact delete alone decides the reply.
   */
  lemma RemoveUnknownPairAsWritten<A>(meta: MetaStore, artifacts: ApiUtils.ArtifactStore<A>, modelId: UuidText, version: int)
    requires TopicModelCrud.GetByIdVersion(meta, modelId, version).None?
    ensures var r := RemoveModelAsWritten(meta, artifacts, modelId, version);
            && r.meta == meta
            && (r.reply == MessageReply(OkMessage) <==> modelId in artifacts)
  {
  }

  /**
   * The metadata is deleted and committed before the artifact: when the
   * artifact delete then fails, the reply is 404 although the row is gone.
   */
  lemma NotFoundAfterMetadataDeleted<A>(meta: MetaStore, artifacts: ApiUtils.ArtifactStore<A>, modelId: UuidText, version: int)
    requires Valid(meta) && TopicModelCrud.GetByIdVersion(meta, modelId, version).Some?
    requires modelId !in artifacts
    ensures var r := RemoveModelAsWritten(meta, artifacts, modelId, version);
            && r.reply == JsonReply(404, "Model not found")
            && TopicModelCrud.GetByIdVersion(r.meta, modelId, version).None?
  {
  }

  /**
   * `remove_model` with the object key of the version it removes: the
   * metadata goes first, then the version's artifact; the reply is "ok"
   * exactly when the artifact existed.
   */
  function RemoveModel<A>(meta: MetaStore, artifacts: ApiUtils.ArtifactStore<A>, modelId: UuidText, version: int := 1)
    : (r: Removal<A>)
    ensures r.reply == MessageReply(OkMessage) <==> ApiUtils.GetModelFilename(modelId, version) in artifacts
    ensures r.reply.JsonReply? ==> r.reply == JsonReply(ApiUtils.NotFoundStatus, ApiUtils.ModelNotFound) && r.artifacts == artifacts
    ensures r.meta == TopicModelCrud.RemoveByIdVersion(meta, modelId, version).0
    ensures forall k :: k in r.artifacts ==> k != ApiUtils.GetModelFilename(modelId, version) && k in artifacts
    ensures forall k :: k != ApiUtils.GetModelFilename(modelId, version) && k in artifacts ==>
      k in r.artifacts && r.artifacts[k] == artifacts[k]
    ensures ApiUtils.LoadModel(r.artifacts, modelId, version).Err?
    ensures forall other: TopicModelBase :: other != TopicModelBase(modelId, version) ==>
      ApiUtils.LoadModel(r.artifacts, other.modelId, other.version) == ApiUtils.LoadModel(artifacts, other.modelId, other.version)
    ensures Valid(meta) ==> Valid(r.meta) && TopicModelCrud.GetByIdVersion(r.meta, modelId, version).None?
  {
    var key := ApiUtils.GetModelFilename(modelId, version);
    var r := RemoveUnder(meta, artifacts, modelId, version, key);
    forall other: TopicModelBase | other != TopicModelBase(modelId, version)
      ensures ApiUtils.LoadModel(r.artifacts, other.modelId, other.version) == ApiUtils.LoadModel(artifacts, other.modelId, other.version)
    {
      ApiUtils.ModelFilenameInjective(other, TopicModelBase(modelId, version));
    }
    r
  }

  /** After a removal neither listing shows any topic of the removed version. */
  lemma RemovedModelHasNoTopics<A>(meta: MetaStore, artifacts: ApiUtils.ArtifactStore<A>, modelId: UuidText, version: int)
    requires Valid(meta)
    ensures var r := RemoveModel(meta, artifacts, modelId, version);
            GetTopics(r.meta, modelId, version) == [] && GetTopicsInfo(r.meta, modelId, version) == []
  {
    var r := RemoveModel(meta, artifacts, modelId, version);
    TopicCrud.UnknownPairHasNoTopics(r.meta, modelId, version, false);
    TopicCrud.UnknownPairHasNoTopics(r.meta, modelId, version, true);
  }

  /** Removal undoes saving: a model saved and then removed answers "ok" and no longer loads. */
  lemma SaveThenRemove<A>(meta: MetaStore, artifacts: ApiUtils.ArtifactStore<A>, topicModel: A, freshId: UuidText,
                          modelId: Option<UuidText>, version: int)
    ensures var (artifacts', id) := ApiUtils.SaveModel(artifacts, topicModel, freshId, modelId, version);
            var r := RemoveModel(meta, artifacts', id, version);
            && r.reply == MessageReply(OkMessage)
            && ApiUtils.LoadModel(r.artifacts, id, version).Err?
  {
  }
}

=== FILE: models.dfy ===
/**
 * Record shapes of the metadata store and its integrity rules:
 * `topic_model` rows unique on (model_id, version), each `topic` row owned
 * by one `topic_model` row, each `word` row owned by one `topic` row, and
 * deletion cascading downwards from a topic model to its topics and words.
 */
module Models {
  import opened Uuids
  import opened Tables

  /** The logical model and version a `topic_model` row stands for; the version defaults to 1. */
  datatype TopicModelBase = TopicModelBase(modelId: UuidText, version: int := 1)

  /** A word's relevance weight: a float the service only stores and returns, never computes with. */
  datatype Score = Score(bits: bv64)

  datatype WordBase = WordBase(name: string, score: Score)

  datatype TopicBase = TopicBase(name: string, count: int, topicIndex: int)

  /** A topic together with its ranked words; built without words, the list is empty. */
  datatype TopicWithWords = TopicWithWords(topic: TopicBase, topWords: seq<WordBase> := [])

  /** A topic built without words has none. */
  lemma TopicWithoutWordsIsEmpty(t: TopicBase)
    ensures TopicWithWords(t).topWords == []
    ensures TopicWithWords(t).topic == t
  {
  }

  /** Stored columns of a `topic` row besides its primary key. */
  datatype TopicFields = TopicFields(topicModelId: nat, topic: TopicBase)

  /** Stored columns of a `word` row besides its primary key. */
  datatype WordFields = WordFields(topicId: nat, word: WordBase)

  type TopicModelRow = Row<TopicModelBase>
  type TopicRow = Row<TopicFields>
  type WordRow = Row<WordFields>

  /** Errors the store operations raise: constraint violations on commit, and a topic key missing from the engine output. */
  datatype Failure =
    | UniqueViolation(key: TopicModelBase)
    | ForeignKeyViolation(missingId: nat)
    | MissingTopicKey(topicIndex: int)

  datatype MetaStore = MetaStore(
    models: Table<TopicModelBase>,
    topics: Table<TopicFields>,
    words: Table<WordFields>)

  /** The `_model_id_version_uc` constraint: no two rows share (model_id, version). */
  predicate UniqueModelVersions(rows: seq<TopicModelRow>) {
    DistinctFields(rows)
  }

  predicate TopicsOwned(s: MetaStore) {
    forall t :: t in s.topics.rows ==> t.fields.topicModelId in s.models.Ids()
  }

  predicate WordsOwned(s: MetaStore) {
    forall w :: w in s.words.rows ==> w.fields.topicId in s.topics.Ids()
  }

  /** Every constraint the database enforces on the three tables. */
  predicate Valid(s: MetaStore) {
    && s.models.Valid()
    && s.topics.Valid()
    && s.words.Valid()
    && UniqueModelVersions(s.models.rows)
    && TopicsOwned(s)
    && WordsOwned(s)
  }

  /** Ids of the topics a topic model row owns. */
  function OwnedTopicIds(s: MetaStore, modelRowId: nat): set<nat> {
    set t | t in s.topics.rows && t.fields.topicModelId == modelRowId :: t.id
  }

  /**
   * Deleting a `topic_model` row with the downward cascades: its topics go,
   * and with them their words. Nothing else is touched.
   */
  function CascadeDelete(s: MetaStore, modelRowId: nat): (r: MetaStore)
    ensures forall m :: m in r.models.rows <==> m in s.models.rows && m.id != modelRowId
    ensures forall t :: t in r.topics.rows <==> t in s.topics.rows && t.fields.topicModelId != modelRowId
    ensures forall w :: w in r.words.rows <==> w in s.words.rows && w.fields.topicId !in OwnedTopicIds(s, modelRowId)
    ensures r.models.nextId == s.models.nextId && r.topics.nextId == s.topics.nextId && r.words.nextId == s.words.nextId
    ensures Valid(s) ==> Valid(r)
    ensures Valid(s) ==> modelRowId !in r.models.Ids()
  {
    var dead := OwnedTopicIds(s, modelRowId);
    var r := MetaStore(
      DeleteWhere(s.models, (m: TopicModelRow) => m.id != modelRowId),
      DeleteWhere(s.topics, (t: TopicRow) => t.fields.topicModelId != modelRowId),
      DeleteWhere(s.words, (w: WordRow) => w.fields.topicId !in dead));
    CascadeDeleteKeepsOwnership(s, modelRowId, r);
    r
  }

  lemma CascadeDeleteKeepsOwnership(s: MetaStore, modelRowId: nat, r: MetaStore)
    requires forall m :: m in r.models.rows <==> m in s.models.rows && m.id != modelRowId
    requires forall t :: t in r.topics.rows <==> t in s.topics.rows && t.fields.topicModelId != modelRowId
    requires forall w :: w in r.words.rows <==> w in s.words.rows && w.fields.topicId !in OwnedTopicIds(s, modelRowId)
    requires s.models.Valid() ==> r.models.Valid()
    requires s.topics.Valid() ==> r.topics.Valid()
    requires s.words.Valid() ==> r.words.Valid()
    requires UniqueModelVersions(s.models.rows) ==> UniqueModelVersions(r.models.rows)
    ensures Valid(s) ==> Valid(r)
    ensures Valid(s) ==> modelRowId !in r.models.Ids()
  {
    if Valid(s) {
      forall t | t in r.topics.rows
        ensures t.fields.topicModelId in r.models.Ids()
      {
        var m :| m in s.models.rows && m.id == t.fields.topicModelId;
        assert m in r.models.rows;
      }
      forall w | w in r.words.rows
        ensures w.fields.topicId in r.topics.Ids()
      {
        var t :| t in s.topics.rows && t.id == w.fields.topicId;
        assert t.fields.topicModelId != modelRowId;
        assert t in r.topics.rows;
      }
    }
  }
}

=== FILE: results.dfy ===
/** Failure-carrying wrappers shared by the whole model. */
module Results {

  /** A value that may be missing (Python's `Optional`). */
  datatype Option<+T> = None | Some(value: T)

  /** Either a value or the error that stopped the computation. */
  datatype Result<+T, +E> = Ok(value: T) | Err(error: E) {
    predicate IsFailure() {
      Err?
    }

    function PropagateFailure<U>(): Result<U, E>
      requires Err?
    {
      Err(error)
    }

    function Extract(): T
      requires Ok?
    {
      value
    }
  }
}

=== FILE: tables.dfy ===
/**
 * A relational table as the metadata store holds it: rows in storage
 * order, each with an auto-increment primary key drawn from `nextId`.
 */
module Tables {

  datatype Row<F> = Row(id: nat, fields: F)

  predicate DistinctIds<F>(rows: seq<Row<F>>) {
    forall i, j :: 0 <= i < j < |rows| ==> rows[i].id != rows[j].id
  }

  /** No two rows carry equal columns (a uniqueness constraint spanning every column but the key). */
  predicate DistinctFields<F(==)>(rows: seq<Row<F>>) {
    forall i, j :: 0 <= i < j < |rows| ==> rows[i].fields != rows[j].fields
  }

  /** Under `DistinctFields`, a row is determined by its columns. */
  lemma SameFieldsSameRow<F>(rows: seq<Row<F>>, a: Row<F>, b: Row<F>)
    requires DistinctFields(rows) && a in rows && b in rows && a.fields == b.fields
    ensures a == b
  {
    var i :| 0 <= i < |rows| && rows[i] == a;
    var j :| 0 <= j < |rows| && rows[j] == b;
    assert i == j;
  }

  function IdsOf<F(==)>(rows: seq<Row<F>>): set<nat> {
    set r | r in rows :: r.id
  }

  datatype Table<F(==)> = Table(rows: seq<Row<F>>, nextId: nat) {

    /** Primary keys are unique and all below the sequence counter. */
    predicate Valid() {
      && DistinctIds(rows)
      && forall r :: r in rows ==> r.id < nextId
    }

    function Ids(): set<nat> {
      IdsOf(rows)
    }
  }

  /** The rows `keep` accepts, in storage order. */
  function Where<F(==,!new)>(rows: seq<Row<F>>, keep: Row<F> -> bool): (r: seq<Row<F>>)
    ensures forall x :: x in r <==> x in rows && keep(x)
    ensures |r| <= |rows|
    ensures DistinctIds(rows) ==> DistinctIds(r)
    ensures DistinctFields(rows) ==> DistinctFields(r)
  {
    if |rows| == 0 then []
    else
      var rest := Where(rows[1..], keep);
      assert forall x :: x in rows[1..] ==> x in rows;
      if keep(rows[0]) then
        assert DistinctIds(rows) ==> forall x :: x in rows[1..] ==> x.id != rows[0].id;
        assert DistinctFields(rows) ==> forall x :: x in rows[1..] ==> x.fields != rows[0].fields;
        [rows[0]] + rest
      else rest
  }

  /** Filtering keeps storage order: filtering two runs of rows is filtering each and joining the results. */
  lemma {:induction false} WhereAppend<F(!new)>(a: seq<Row<F>>, b: seq<Row<F>>, keep: Row<F> -> bool)
    ensures Where(a + b, keep) == Where(a, keep) + Where(b, keep)
    decreases |a|
  {
    if |a| > 0 {
      assert (a + b)[0] == a[0];
      assert (a + b)[1..] == a[1..] + b;
      WhereAppend(a[1..], b, keep);
    } else {
      assert a + b == b;
    }
  }

  /** A table with the rows `keep` rejects deleted; the counter is untouched, so ids are never reused. */
  function DeleteWhere<F(==,!new)>(t: Table<F>, keep: Row<F> -> bool): (r: Table<F>)
    ensures forall x :: x in r.rows <==> x in t.rows && keep(x)
    ensures r.nextId == t.nextId
    ensures t.Valid() ==> r.Valid()
    ensures DistinctFields(t.rows) ==> DistinctFields(r.rows)
  {
    Table(Where(t.rows, keep), t.nextId)
  }
}

=== FILE: uuids.dfy ===
/**
 * Canonical text of a UUID (section 3 of RFC 4122, as Python's `str(uuid)`
 * renders it): 36 characters, lower-case hex digits in groups 8-4-4-4-12
 * separated by hyphens. Model ids are carried in this form throughout.
 */
module Uuids {

  predicate IsLowerHex(c: char) {
    '0' <= c <= '9' || 'a' <= c <= 'f'
  }

  predicate IsHyphenPosition(i: int) {
    i == 8 || i == 13 || i == 18 || i == 23
  }

  predicate CanonicalAt(i: int, c: char) {
    if IsHyphenPosition(i) then c == '-' else IsLowerHex(c)
  }

  predicate IsCanonical(s: string) {
    |s| == 36 && forall i :: 0 <= i < |s| ==> CanonicalAt(i, s[i])
  }

  type UuidText = s: string | IsCanonical(s) witness "00000000-0000-0000-0000-000000000000"

  /** The canonical text has only hex digits and hyphens, so it never holds `c` unless `c` is one of them. */
  lemma OnlyHexAndHyphens(u: UuidText, c: char)
    requires !IsLowerHex(c) && c != '-'
    ensures c !in u
  {
  }
}
